=== FILE: README.md ===
# RISC-V debug transport driver: program synthesis and bus handshake

This project models the core of a host-side driver for a RISC-V debug module (`dtm_t`).
The driver reaches the target hart through a small debug RAM window. To read or write
target memory or a CSR, it does four things:

- assembles a short RISC-V program into that RAM;
- uploads the program word by word over the debug bus, tagging the last word with an
  interrupt bit so that the hart runs it;
- polls a result word until the hart clears the tag;
- reads back any further results.

A clocked `tick` function moves each request and response across the bus with a
valid/ready handshake.

The model has five modules:

- `Encoding`: the `ENCODE_*_IMM` macros for the I, S, SB, U and UJ formats. They are
  bit-vector functions with decoders, field-isolation and round-trip lemmas. Module
  `Encoding` also holds the base instruction words the programs OR an immediate into.
- `Geometry`: `ram_base()`, `rom_ret()`, `ram_words()`, `chunk_align()` and
  `chunk_max_size()`. `chunk_max_size()` is modelled both as written (with the `size_t`
  wrap) and corrected.
- `Programs`: the synthesis of the `read_chunk`, `write_chunk`, `write_csr`, `read_csr`
  and `get_xlen` programs.
  - A program word is a `Slot`: a base word with an immediate, or a raw word.
    `Assemble` gives its 32-bit value.
  - The chunk builders fill an `array` of `ram_words()` slots in loops, as the source
    does. Each is proved to produce the image given by a slot-by-slot function.
  - Lemmas show that every program fits the window, every loaded or stored word is the
    right RAM word, every immediate survives encoding, and every return jump lands on
    `rom_ret()`.
- `Bus`: the driver itself (class `Driver`): `do_command`, `read`, `write`, `nop`,
  `run_program`, the chunk and CSR operations and `get_xlen`.
  - The bus and the hart are a `Transport` oracle. It answers the last request of the
    sequence of all requests sent so far.
  - Each operation is specified by a function from the requests sent before it to the
    requests sent after it and the outcome (`Traffic`). Each method is proved to follow
    that function.
  - A non-zero response status, which the source asserts against, becomes a `Fail`
    outcome.
- `Handshake`: the `tick` state machine (class `Dtm` with `req_wait`, `resp_wait`,
  `pending_req`, `resp_buf`). Its transition function states the handshake's promises,
  and a lemma shows that the two wait flags are never set together in any run.

## Model

| member | source | states |
|---|---|---|
| Encoding.EncodeI | csrc/dtm.cc:10-11 | sets no bit outside 31:20, and decoding gives back bits 11:0 of the offset |
| Encoding.EncodeS | csrc/dtm.cc:12-13 | sets no bit outside 31:25 and 11:7, and decoding gives back bits 11:0 of the offset |
| Encoding.EncodeSB | csrc/dtm.cc:14-15 | sets no bit outside the SB fields, and decoding gives back bits 12:1 of the offset |
| Encoding.EncodeU | csrc/dtm.cc:16-17 | sets no bit outside 31:12, and decoding gives back bits 31:12 of the offset |
| Encoding.EncodeUJ | csrc/dtm.cc:18-19 | sets no bit outside the UJ fields, and decoding gives back bits 20:1 of the offset |
| Encoding.SignedRoundTripI | csrc/dtm.cc:10-11 | every signed 12-bit offset survives encoding, decoding and sign extension |
| Encoding.SignedRoundTripS | csrc/dtm.cc:12-13 | every signed 12-bit offset survives encoding, decoding and sign extension |
| Encoding.SignedRoundTripSB | csrc/dtm.cc:14-15 | every even signed 13-bit offset survives encoding, decoding and sign extension |
| Encoding.RoundTripU | csrc/dtm.cc:16-17 | a value with bits 11:0 clear survives encoding and decoding |
| Encoding.SignedRoundTripUJ | csrc/dtm.cc:18-19 | every even signed 21-bit offset survives encoding, decoding and sign extension |
| Encoding.WordValue | csrc/dtm.cc:93 | an offset handed to an encoder is taken modulo 2^32, as the unsigned C arithmetic does |
| Encoding.BaseWordsHaveClearFields | csrc/dtm.cc:80-154 | each of the 14 base words (and `jal` 0x6f) has zeros in the immediate field OR-ed into it |
| Encoding.InsertI | csrc/dtm.cc:80 | OR-ing an I immediate into a base with a clear field keeps the opcode and register bits and carries the offset bits |
| Encoding.InsertS | csrc/dtm.cc:83 | the same for an S immediate |
| Encoding.InsertUJ | csrc/dtm.cc:93 | the same for a UJ immediate |
| Encoding.HalvesRebuild | csrc/dtm.cc:94-95 | the two 32-bit words stored for the target address give back the 64-bit address |
| Geometry.RamWords | csrc/dtm.h:62 | `ram_words()` lies in 1..64 for every `dminfo` |
| Geometry.RamWordsReadsOnlyItsField | csrc/dtm.h:62 | `ram_words()` depends only on bits 15:10 of `dminfo` |
| Geometry.RamWordsIsFieldPlusOne | csrc/dtm.h:62 | `ram_words()` is field 15:10 plus one |
| Geometry.SlotAddress | csrc/dtm.h:60 | RAM word w is addressed 4·w bytes above `ram_base()` (0x400); `SlotAddressInWindow` bounds it |
| Geometry.SlotAddressInWindow | csrc/dtm.h:60-62 | every RAM word address is in 0x400..0x4FC, below 2^11, and its offset to `rom_ret()` is positive, a multiple of 4 and below 2^20 |
| Geometry.ChunkAlign | csrc/dtm.cc:66-69 | `chunk_align()` is xlen/8, that is 4 or 8 |
| Geometry.ChunkMaxSizeAsWritten | csrc/dtm.cc:163-169 | `chunk_max_size()` as written, with both `size_t` subtractions and the product taken modulo 2^64; the result is a `size_t` value |
| Geometry.ChunkMaxSize | csrc/dtm.cc:163-169 | the corrected size: 0 for a window below 4 (32-bit) or 6 (64-bit) words, the source's formula otherwise; always a multiple of `chunk_align()` |
| Geometry.ChunkRequest | csrc/dtm.cc:163-169 | the caller contract `chunk_align()` and `chunk_max_size()` announce, which the synthesizers assume: width 32 or 64, a window of at least 4 or 6 words, and a length that is a multiple of `chunk_align()` and at most `chunk_max_size()` |
| Geometry.ChunkMaxSizeWrapsOnSmallWindow | csrc/dtm.cc:163-169 | as written, a 1-word window on a 32-bit target reports a chunk of 6148914691236517200 bytes |
| Geometry.ChunkMaxSizeWithinWindow | csrc/dtm.cc:163-169 | the corrected size is a multiple of `chunk_align()` and never exceeds the window's bytes |
| Geometry.ChunkMaxSizeAgreesWithSource | csrc/dtm.cc:163-169 | the corrected and as-written sizes agree on every window that does not wrap |
| Geometry.ChunkMaxSizeMonotonic | csrc/dtm.cc:163-169 | a larger window never allows a smaller chunk |
| Programs.AssembleIType | csrc/dtm.cc:80-88 | an I word with a non-negative offset below 2^12 keeps its base bits and decodes to exactly that offset |
| Programs.AssembleSType | csrc/dtm.cc:83-89 | the same for an S word |
| Programs.AssembleUJType | csrc/dtm.cc:93 | the same for a UJ word with an even offset below 2^11 |
| Programs.ReturnJumpLandsOnRom | csrc/dtm.cc:93 | the return word at any RAM word is a `jal zero` whose offset from that word lands on `rom_ret()` |
| Programs.ReturnWordAtSlot2 | csrc/dtm.cc:140 | 0x3fc0006f is the encoder's return jump for word 2 |
| Programs.ReturnWordAtSlot5 | csrc/dtm.cc:179 | 0x3f00006f is the encoder's return jump for word 5 |
| Programs.UnitsFit | csrc/dtm.cc:163-169 | an accepted chunk's units fit the window: two code words and xlen/32 data words each, plus the fixed overhead |
| Programs.BuildReadChunk | csrc/dtm.cc:71-97 | builds exactly the read image; the program and the result word fit the window, so `run_program`'s assertions hold |
| Programs.FillReadChunk | csrc/dtm.cc:73-95 | fills the address load, every unit's load and store, the return jump and both address words |
| Programs.ReadChunkImageBySlots | csrc/dtm.cc:79-95 | a sequence with those words in place is the read image: every uploaded word is assigned |
| Programs.ReturnAndAddress | csrc/dtm.cc:93-95 | writes the return jump below the result or data area and the address halves, and nothing else |
| Programs.ReadChunkSlot | csrc/dtm.cc:79-95 | word k of the read program: the address load, the lw/sw or ld/sd of each unit, the return jump, and the two address halves |
| Programs.ReadChunkImage | csrc/dtm.cc:73-95 | the `prog_words` words the read program uploads, slot by slot |
| Programs.ReadChunkCode | csrc/dtm.cc:79-91 | word 0 loads the target address from `addr_word`, words 2i+1 and 2i+2 move unit i, and every word above 2·units is left as it was |
| Programs.ReadUnits32 | csrc/dtm.cc:81-84 | the 32-bit loop fills words 1..2·units with the unit loads and stores and changes no other word |
| Programs.ReadUnits64 | csrc/dtm.cc:87-90 | the 64-bit loop fills words 1..2·units with the unit loads and stores and changes no other word |
| Programs.ReadChunkFits | csrc/dtm.cc:73-99 | the uploaded words, `addr_word + 1` and the read-back words all lie in the window |
| Programs.ReadChunkDoublewordsAligned | csrc/dtm.cc:86-89 | on 64-bit targets the result area and each doubleword store are 8-byte aligned |
| Programs.ReadUnitStoreAddress | csrc/dtm.cc:83-89 | unit i is stored at RAM word `result_word + i·xlen/32` |
| Programs.ReadBackMatchesStores | csrc/dtm.cc:81-99 | each unit store of the read program writes inside RAM words `result_word .. result_word + len/4 - 1`, and each word read back lies inside the bytes written by the store of unit `j / (xlen/32)` |
| Programs.ReadChunkEncodesExactly | csrc/dtm.cc:79-93 | every immediate in the read program is below 2^11 over a clear field, and its only jump is the return jump |
| Programs.ReadUnitEncodesExactly | csrc/dtm.cc:82-89 | each unit load and store of the read program encodes without loss |
| Programs.BuildWriteChunk | csrc/dtm.cc:103-130 | builds exactly the write image; the program and the data word fit the window |
| Programs.FillWriteChunk | csrc/dtm.cc:105-128 | fills the data area, the code, the return jump and both address words |
| Programs.WriteChunkImageBySlots | csrc/dtm.cc:110-128 | a sequence with those words in place is the write image: every uploaded word is assigned |
| Programs.WriteChunkSlot | csrc/dtm.cc:110-128 | word k of the write program: the address load, each unit's load from the data area and store to the target, the return jump, the copied data, and the two address halves |
| Programs.WriteChunkImage | csrc/dtm.cc:105-128 | the `prog_words` words the write program uploads, slot by slot |
| Programs.CopyWords | csrc/dtm.cc:110 | copies the source words to `data_word ..` and changes no other word |
| Programs.WriteChunkCode | csrc/dtm.cc:112-124 | word 0 loads the target address, words 2i+1 and 2i+2 move unit i, and every word above 2·units (the return slot and the data area among them) is left as it was |
| Programs.WriteUnits32 | csrc/dtm.cc:114-117 | the 32-bit loop fills words 1..2·units and changes no other word |
| Programs.WriteUnits64 | csrc/dtm.cc:120-123 | the 64-bit loop fills words 1..2·units and changes no other word |
| Programs.WriteChunkFits | csrc/dtm.cc:105-108 | the program and `addr_word + 1` lie in the window, and the data area holds `len/4` words |
| Programs.WriteUnitLoadAddress | csrc/dtm.cc:115-121 | unit i is loaded from RAM word `data_word + i·xlen/32`, 8-byte aligned on 64-bit targets |
| Programs.WriteChunkDataWords | csrc/dtm.cc:110 | data word j of the image is source word j |
| Programs.WriteChunkEncodesExactly | csrc/dtm.cc:112-126 | every immediate in the write program is below 2^11 over a clear field, and its only jump is the return jump |
| Programs.WriteUnitEncodesExactly | csrc/dtm.cc:115-122 | each unit load and store of the write program encodes without loss |
| Programs.BuildWriteCsr | csrc/dtm.cc:133-145 | builds the CSR write image, with the value at words 4 and 5 and 4 + xlen/32 words uploaded |
| Programs.WriteCsrImage | csrc/dtm.cc:135-145 | the `data_word + xlen/32` words `write_csr` uploads: load from word 4, `csrw which`, return, a zero word, and the value's halves |
| Programs.ReadCsrProgram | csrc/dtm.cc:150-158 | the three words `read_csr` uploads (`csrr which`, store to word 4, return), polled at word 4 |
| Programs.CsrProgramsLayout | csrc/dtm.cc:133-156 | the CSR number reaches the instruction unchanged, the value passes through RAM word 4 (8-byte aligned), and word 2 is the return jump |
| Programs.CsrProgramsFit | csrc/dtm.cc:137-160 | with six words of RAM, both CSR programs, their result word and the 64-bit read-back fit |
| Programs.GetXlenProgram | csrc/dtm.cc:173-182 | the six literal words of the XLEN probe, all uploaded, polled at word 0 |
| Programs.GetXlenProgramLayout | csrc/dtm.cc:171-182 | the probe reads CSR 0xF10 into s0, sets s1 with `addi s1, zero, 32`, sets s0 with `slti s0, s0, 0`, shifts with `sll s1, s1, s0`, stores s1 to the result word 0, and ends with the return jump for word 5 |
| Bus.Command | csrc/dtm.cc:21-33 | a command appends its request; it succeeds exactly when the status is 0, and then yields the response data |
| Bus.Tagged | csrc/dtm.cc:55-57 | a widened word keeps its low 32 bits, and its upper 32 bits are the interrupt tag (0x2_0000_0000) exactly when asked and zero otherwise |
| Bus.UploadWord | csrc/dtm.cc:56-57 | the uploaded 64-bit word is the program word in the low half, with the interrupt tag as the only upper bit on the last word and no upper bit on the others |
| Bus.UploadRequests | csrc/dtm.cc:56-57 | an upload from word i makes n - i requests |
| Bus.UploadRequestsInOrder | csrc/dtm.cc:56-57 | upload request k - i writes RAM word k, in increasing order |
| Bus.UploadTraffic | csrc/dtm.cc:56-57 | an upload sends a prefix of its writes, all of them when it succeeds; a failure follows a non-zero status |
| Bus.Upload | csrc/dtm.cc:56-57 | the upload loop: write program word i, tagged on the last, to RAM word i, for i = 0 .. n-1, stopping at the first failed command |
| Bus.PollTraffic | csrc/dtm.cc:59-63 | a poll sends only reads of the result word; its value is the low half of a status-0 answer with a clear tag |
| Bus.PollYieldsFirstClear | csrc/dtm.cc:59-63 | every earlier poll answer had status 0 and the tag still set |
| Bus.Poll | csrc/dtm.cc:59-63 | the poll loop: read the result word until its interrupt bit is clear and return its low half, failing after `fuel` reads |
| Bus.Run | csrc/dtm.cc:50-64 | `run_program`: the upload, then the poll of the result word |
| Bus.RunTraffic | csrc/dtm.cc:50-64 | a successful `run_program` uploads every word in order, then only polls the result word, and returns the low half of the first clear answer |
| Bus.ReadsOf | csrc/dtm.cc:98-99 | the read-back makes one read per remaining word |
| Bus.ReadsOfInOrder | csrc/dtm.cc:98-99 | read k of the read-back reads word `base + i + k` |
| Bus.ReadBack | csrc/dtm.cc:98-99 | a successful read-back adds one word per read and sends one request per read |
| Bus.ReadBackRequests | csrc/dtm.cc:98-99 | the read-back sends exactly its reads, in order, and keeps the words gathered before it |
| Bus.ReadBackValues | csrc/dtm.cc:98-99 | each word read back is the low half of the answer to its own read |
| Bus.ReadResultAreaTraffic | csrc/dtm.cc:97-100 | a read chunk has `len/4` words: the `run_program` value, then the answers to reads of result words 1.. in order |
| Bus.ReadChunkTraffic | csrc/dtm.cc:71-101 | `read_chunk`'s requests and outcome: run the read image, then read back result words 1 .. len/4 - 1 |
| Bus.WriteChunkTraffic | csrc/dtm.cc:103-131 | `write_chunk`'s requests and outcome: run the write image, polling the data word |
| Bus.WriteCsrTraffic | csrc/dtm.cc:133-146 | `write_csr`'s requests and outcome: run the CSR write image, polling word 0 |
| Bus.ReadCsrTraffic | csrc/dtm.cc:148-161 | `read_csr`'s requests: run the CSR read program, then read word 5 on a 64-bit target |
| Bus.GetXlenTraffic | csrc/dtm.cc:182-184 | `get_xlen` only succeeds with 32 or 64 |
| Bus.Driver.constructor | csrc/dtm.cc:195-196 | a driver starts with no requests sent and the geometry it is given |
| Bus.Driver.DoCommand | csrc/dtm.cc:21-33 | sends one request and returns the data of a status-0 response, failing otherwise |
| Bus.Driver.Read | csrc/dtm.cc:35-38 | sends `{addr, 1, 0}` |
| Bus.Driver.Write | csrc/dtm.cc:40-43 | sends `{addr, 2, data}` |
| Bus.Driver.Nop | csrc/dtm.cc:45-48 | sends `{0, 0, 0}` |
| Bus.Driver.RunProgram | csrc/dtm.cc:50-64 | its loops follow `Run`: the upload, then polling for at most `fuel` reads |
| Bus.Driver.ReadChunk | csrc/dtm.cc:71-101 | builds the read program and follows `ReadChunkTraffic`, meeting `run_program`'s window assertions |
| Bus.Driver.WriteChunk | csrc/dtm.cc:103-131 | builds the write program and follows `WriteChunkTraffic` |
| Bus.Driver.WriteCsr | csrc/dtm.cc:133-146 | builds the CSR write program and follows `WriteCsrTraffic` |
| Bus.Driver.ReadCsr | csrc/dtm.cc:148-161 | runs the CSR read program, then reads word 5 on a 64-bit target |
| Bus.Driver.GetXlen | csrc/dtm.cc:171-185 | runs the probe and returns only 32 or 64 |
| Handshake.Transition | csrc/dtm.cc:232-267 | keeps the wait flags exclusive; `req_valid` is false while a response is awaited; `resp_ready` holds and `req_bits` is the pending request; a queued request is taken only when idle; `req_ready` moves a waiting request to the response wait, and its absence changes nothing; while a response is awaited and none arrives nothing changes; a response is buffered and returns the machine to idle, with both flags clear and `req_valid` false |
| Handshake.RequestPhase | csrc/dtm.cc:240-255 | the request half of `tick`: the if-chain on `resp_wait`, `req_wait` and `req_ready`, giving `req_valid` and the new flags |
| Handshake.Legal | csrc/dtm.cc:260-261 | `assert(resp_wait)`: a response may arrive only while one is awaited after the request half |
| Handshake.RunTicks | csrc/dtm.cc:232-267 | the state after a sequence of legal ticks |
| Handshake.RunStaysExclusive | csrc/dtm.cc:222-267 | from a state with the flags exclusive (as the constructor leaves it), every legal run keeps them exclusive |
| Handshake.Dtm.constructor | csrc/dtm.cc:220-223 | both wait flags start cleared |
| Handshake.Dtm.Tick | csrc/dtm.cc:232-267 | updates the fields and outputs exactly as `Transition` says |

## Left out

- Threads and semaphores (`sem_wait`/`sem_post` in `do_command`, `tick` and the
  constructor, and `pthread_create`) are left out because they are concurrency. The
  driver side (`Driver`) and the clocked side (`Dtm`) are separate classes. A tick takes
  the queued request as a parameter, and the response it accepts is kept in `respBuf`.
- `producer_thread` and `producer_thread_main` are left out. They run a start-up test
  sequence: read and write a 16-byte chunk, print the results, then send `nop()` forever.
  The text at line 213 is cut off. Only the two start-up reads (`dminfo` and `xlen`) are
  modelled, as constructor parameters of `Driver`.
- The hart that executes the uploaded programs is foreign hardware and is left out. The
  `Transport` oracle stands for the bus and the hart together. No lemma claims that a
  write followed by a read returns the written data; that would need the hart's
  instruction semantics.
- Bus.Driver.RunProgram: the source's poll loop has no bound. The model polls at most
  `fuel` times and then reports `Stalled`, which the source never does.
- The `memcpy` byte copies depend on host endianness and are left out. Chunks are
  sequences of 32-bit words: `src` for `write_chunk` and the result for `read_chunk`.
- Bus.Driver.ReadCsr: `read_csr` has no `return` statement, so it returns no defined
  value. Only its bus traffic is modelled.
- Programs.BuildWriteCsr: `write_csr` stores into a `const` array. The model treats that
  array as writable and zero-filled beyond its initializer.
- The source's assertions on its own arguments are preconditions here:
  - `run_program`'s `n <= ram_words()` and `result < ram_words()`;
  - the window sizes the CSR programs and the probe need.
- Assertions on values that come from the target are outcomes instead: the response
  status in `do_command` and the XLEN check in `get_xlen` become `Fail` outcomes.
- `pending_req` and `resp_buf` are left uninitialized by the source. The `Dtm`
  constructor takes their initial values as parameters.
- `tick`'s `assert(resp_wait)` is the precondition `Legal` of `Tick`. A response is legal
  only while `resp_wait` holds after the request half of the tick.

## Findings

| source | as written | input that shows it | evidently intended | confidence | as-written member | corrected member |
|---|---|---|---|---|---|---|
| csrc/dtm.cc:163-169 | `ram_words() - 4` and `ram_words() - 6` are `size_t` subtractions that wrap when the window is smaller than 4 (32-bit) or 6 (64-bit) words | xlen = 32 with `dminfo` field 15:10 equal to 0 (one RAM word): `chunk_max_size()` is 6148914691236517200 | a window smaller than 4 (32-bit) or 6 (64-bit) words allows no bytes; together with the `ChunkRequest` window bound, every accepted chunk program fits the window | high, not executed | Geometry.ChunkMaxSizeWrapsOnSmallWindow | Geometry.ChunkMaxSizeWithinWindow |

=== FILE: bus.dfy ===
/** The debug-bus side of the driver: the request and response records, one
    bus command at a time, and the operations built on it (`run_program`,
    the chunked memory transfers, the CSR accesses and the XLEN probe).

    The debug bus and the hart behind it are foreign: a `Transport` gives the
    response to the last request of the sequence of all requests sent so far.
    Each operation is specified by a function of the requests sent before it
    (a `Traffic` value: the requests sent afterwards and the outcome), and
    the `Driver` methods are proved to follow those functions. A response
    with a non-zero status, which the source treats as a fatal assertion,
    becomes a `Fail` outcome that ends the operation. */
module Bus {
  import opened Encoding
  import opened Geometry
  import opened Programs

  /** `uint32_t`, for the fields that are only compared and counted. */
  newtype U32 = x: int | 0 <= x < 0x1_0000_0000

  /** A debug-bus request (`dtm_t::req`). */
  datatype Req = Req(addr: U32, op: U32, data: bv64)
  /** A debug-bus response (`dtm_t::resp`); status 0 means success. */
  datatype Resp = Resp(resp: U32, data: bv64)

  const OpNop: U32 := 0
  const OpRead: U32 := 1
  const OpWrite: U32 := 2

  /** The tag `run_program` sets on the last word it uploads; the target
      clears it in the result word when the program has finished. */
  const InterruptBit: bv64 := 0x2_0000_0000

  /** The bus and the hart behind it: the response to the last request of a
      non-empty sequence of requests, given all the earlier ones. */
  type Transport = seq<Req> -> Resp

  /** Why an operation stopped. */
  datatype Failure =
    | ProtocolFault(status: U32)   // a response with non-zero status
    | Stalled                       // the poll for the result ran out of fuel
    | BadXlen(value: bv32)          // the XLEN probe reported neither 32 nor 64

  datatype Outcome<T> = Ok(value: T) | Fail(why: Failure)

  /** The requests sent up to the end of an operation, and its outcome. */
  datatype Traffic<T> = Traffic(sent: seq<Req>, out: Outcome<T>)

  /** A RAM word index converted to the 32-bit request address. */
  function Addr(i: nat): U32
  {
    (i % 0x1_0000_0000) as U32
  }

  /** The request `read(addr)` issues. */
  function ReadReq(addr: U32): Req { Req(addr, OpRead, 0) }
  /** The request `write(addr, data)` issues. */
  function WriteReq(addr: U32, data: bv64): Req { Req(addr, OpWrite, data) }
  /** The request `nop()` issues. */
  const NopReq: Req := Req(0, OpNop, 0)

  /** `do_command`: the request is sent after `sent`; a zero status yields
      the response data, any other status is a failure. */
  function Command(t: Transport, sent: seq<Req>, r: Req): (x: Traffic<bv64>)
    ensures x.sent == sent + [r] && x.sent[|sent|] == r
    ensures x.out.Ok? <==> t(x.sent).resp == 0
    ensures x.out.Ok? ==> x.out.value == t(x.sent).data
    ensures x.out.Fail? ==> x.out.why == ProtocolFault(t(x.sent).resp)
  {
    var rsp := t(sent + [r]);
    Traffic(sent + [r], if rsp.resp == 0 then Ok(rsp.data) else Fail(ProtocolFault(rsp.resp)))
  }

  // ---------------------------------------------------------------------
  // run_program

  /** A program word widened to 64 bits, with the interrupt tag when `tag`
      holds; no other upper bit is set. */
  function Tagged(x: bv32, tag: bool): (w: bv64)
    ensures Low32(w) == x
    ensures w & InterruptBit != 0 <==> tag
    ensures w >> 32 == if tag then 2 else 0
  {
    (x as bv64) | (if tag then InterruptBit else 0)
  }

  /** The value `run_program` writes to RAM word `i` of an `n`-word upload:
      the program word, with the interrupt tag on the last word only. */
  function UploadWord(program: seq<bv32>, n: nat, i: nat): (w: bv64)
    requires i < n <= |program|
    ensures Low32(w) == program[i]
    ensures w & InterruptBit != 0 <==> i == n - 1
    ensures w >> 32 == if i == n - 1 then 2 else 0
  {
    Tagged(program[i], i == n - 1)
  }

  /** The requests of a successful upload of words `i .. n-1`: one write per
      word, to that word, in increasing order. */
  function UploadRequests(program: seq<bv32>, n: nat, i: nat): (rs: seq<Req>)
    requires i <= n <= |program|
    decreases n - i
    ensures |rs| == n - i
  {
    if i == n then []
    else [WriteReq(Addr(i), UploadWord(program, n, i))] + UploadRequests(program, n, i + 1)
  }

  /** Request `k - i` of an upload from word `i` writes word `k`. */
  lemma {:induction false} UploadRequestsInOrder(program: seq<bv32>, n: nat, i: nat, k: nat)
    requires i <= k < n <= |program|
    decreases k - i
    ensures UploadRequests(program, n, i)[k - i] == WriteReq(Addr(k), UploadWord(program, n, k))
  {
    if i < k {
      UploadRequestsInOrder(program, n, i + 1, k);
    }
  }

  /** The upload loop of `run_program` from word `i` on, stopping at the
      first failed command. */
  function Upload(t: Transport, sent: seq<Req>, program: seq<bv32>, n: nat, i: nat): Traffic<()>
    requires i <= n <= |program|
    decreases n - i
  {
    if i == n then Traffic(sent, Ok(()))
    else
      var x := Command(t, sent, WriteReq(Addr(i), UploadWord(program, n, i)));
      if x.out.Fail? then Traffic(x.sent, Fail(x.out.why))
      else Upload(t, x.sent, program, n, i + 1)
  }

  /** The poll loop of `run_program`, with at most `fuel` reads: read the
      result word until its interrupt tag is clear, then yield its low 32
      bits. */
  function Poll(t: Transport, sent: seq<Req>, result: nat, fuel: nat): Traffic<bv32>
    decreases fuel
  {
    if fuel == 0 then Traffic(sent, Fail(Stalled))
    else
      var x := Command(t, sent, ReadReq(Addr(result)));
      if x.out.Fail? then Traffic(x.sent, Fail(x.out.why))
      else if x.out.value & InterruptBit == 0 then Traffic(x.sent, Ok(Low32(x.out.value)))
      else Poll(t, x.sent, result, fuel - 1)
  }

  /** `run_program`: upload the first `n` words, then poll word `result`. */
  function Run(t: Transport, sent: seq<Req>, program: seq<bv32>, n: nat, result: nat, fuel: nat)
    : Traffic<bv32>
    requires n <= |program|
  {
    var u := Upload(t, sent, program, n, 0);
    if u.out.Fail? then Traffic(u.sent, Fail(u.out.why))
    else Poll(t, u.sent, result, fuel)
  }

  /** An upload sends a prefix of its write requests, all of them when it
      succeeds; when it fails, the last one was answered with a non-zero
      status. */
  lemma {:induction false} UploadTraffic(t: Transport, sent: seq<Req>, program: seq<bv32>, n: nat, i: nat)
    requires i <= n <= |program|
    decreases n - i
    ensures var u := Upload(t, sent, program, n, i);
      |sent| <= |u.sent| <= |sent| + (n - i) &&
      u.sent == (sent + UploadRequests(program, n, i))[..|u.sent|] &&
      (u.out.Ok? ==> u.sent == sent + UploadRequests(program, n, i)) &&
      (u.out.Fail? ==> |u.sent| > |sent| && u.out.why == ProtocolFault(t(u.sent).resp) && t(u.sent).resp != 0)
  {
    if i < n {
      var r := WriteReq(Addr(i), UploadWord(program, n, i));
      var x := Command(t, sent, r);
      var rest := UploadRequests(program, n, i + 1);
      assert UploadRequests(program, n, i) == [r] + rest;
      assert sent + UploadRequests(program, n, i) == x.sent + rest;
      if x.out.Ok? {
        UploadTraffic(t, x.sent, program, n, i + 1);
      }
    }
  }

  /** A poll sends nothing but reads of the result word, at most `fuel` of
      them. When it yields a value, the last read was answered with status 0
      and a clear interrupt tag, and the value is that response's low 32
      bits. */
  lemma {:induction false} PollTraffic(t: Transport, sent: seq<Req>, result: nat, fuel: nat)
    decreases fuel
    ensures var y := Poll(t, sent, result, fuel);
      |sent| <= |y.sent| <= |sent| + fuel && y.sent[..|sent|] == sent &&
      (forall k :: |sent| <= k < |y.sent| ==> y.sent[k] == ReadReq(Addr(result))) &&
      (y.out.Ok? ==> |y.sent| > |sent| && t(y.sent).resp == 0 &&
                     t(y.sent).data & InterruptBit == 0 && y.out.value == Low32(t(y.sent).data))
  {
    if fuel > 0 {
      var x := Command(t, sent, ReadReq(Addr(result)));
      if x.out.Ok? && x.out.value & InterruptBit != 0 {
        PollTraffic(t, x.sent, result, fuel - 1);
        var y := Poll(t, x.sent, result, fuel - 1);
        assert y.sent[..|sent|] == y.sent[..|x.sent|][..|sent|];
      }
    }
  }

  /** A poll yields the first response whose tag is clear: every read before
      the last one succeeded with the interrupt tag still set. */
  lemma {:induction false} PollYieldsFirstClear(t: Transport, sent: seq<Req>, result: nat, fuel: nat)
    decreases fuel
    ensures var y := Poll(t, sent, result, fuel);
      forall m :: |sent| < m < |y.sent| ==>
        t(y.sent[..m]).resp == 0 && t(y.sent[..m]).data & InterruptBit != 0
  {
    if fuel > 0 {
      var x := Command(t, sent, ReadReq(Addr(result)));
      if x.out.Ok? && x.out.value & InterruptBit != 0 {
        PollYieldsFirstClear(t, x.sent, result, fuel - 1);
        PollTraffic(t, x.sent, result, fuel - 1);
        var y := Poll(t, x.sent, result, fuel - 1);
        assert y.sent[..|x.sent|] == x.sent;
      }
    }
  }

  /** What `run_program` does on the bus: when it yields a value, it has
      written every program word to its RAM word in increasing order (the
      last one tagged), then read the result word until the tag came back
      clear, and the value is the low half of that last response. */
  lemma RunTraffic(t: Transport, sent: seq<Req>, program: seq<bv32>, n: nat, result: nat, fuel: nat)
    requires n <= |program|
    ensures var y := Run(t, sent, program, n, result, fuel);
      y.out.Ok? ==>
        |y.sent| > |sent| + n &&
        y.sent[..|sent| + n] == sent + UploadRequests(program, n, 0) &&
        (forall k :: |sent| + n <= k < |y.sent| ==> y.sent[k] == ReadReq(Addr(result))) &&
        t(y.sent).resp == 0 && t(y.sent).data & InterruptBit == 0 &&
        y.out.value == Low32(t(y.sent).data)
  {
    UploadTraffic(t, sent, program, n, 0);
    var u := Upload(t, sent, program, n, 0);
    if u.out.Ok? {
      PollTraffic(t, u.sent, result, fuel);
    }
  }

  // ---------------------------------------------------------------------
  // Reading back the rest of a chunk

  /** The reads of RAM words `base + i .. base + end - 1`. */
  function ReadsOf(base: nat, i: nat, end: nat): (rs: seq<Req>)
    decreases end - i
    ensures |rs| == if i < end then end - i else 0
  {
    if i >= end then [] else [ReadReq(Addr(base + i))] + ReadsOf(base, i + 1, end)
  }

  /** Read `k` of `ReadsOf(base, i, end)` reads word `base + i + k`. */
  lemma {:induction false} ReadsOfInOrder(base: nat, i: nat, end: nat, k: nat)
    requires i + k < end
    decreases k
    ensures ReadsOf(base, i, end)[k] == ReadReq(Addr(base + i + k))
  {
    if k > 0 {
      ReadsOfInOrder(base, i + 1, end, k - 1);
    }
  }

  /** `read_chunk`'s read-back loop from word `base + i` on: the low 32 bits
      of each response are appended to `got`. */
  function ReadBack(t: Transport, sent: seq<Req>, base: nat, i: nat, end: nat, got: seq<bv32>)
    : (y: Traffic<seq<bv32>>)
    decreases end - i
    ensures y.out.Ok? ==> |y.out.value| == |got| + |ReadsOf(base, i, end)|
    ensures y.out.Ok? ==> |y.sent| == |sent| + |ReadsOf(base, i, end)|
  {
    if i >= end then Traffic(sent, Ok(got))
    else
      var x := Command(t, sent, ReadReq(Addr(base + i)));
      if x.out.Fail? then Traffic(x.sent, Fail(x.out.why))
      else ReadBack(t, x.sent, base, i + 1, end, got + [Low32(x.out.value)])
  }

  /** A successful read-back reads each word once, in increasing order, and
      keeps what was gathered before it. */
  lemma {:induction false} ReadBackRequests(t: Transport, sent: seq<Req>, base: nat, i: nat, end: nat,
                                            got: seq<bv32>)
    decreases end - i
    ensures var y := ReadBack(t, sent, base, i, end, got);
      y.out.Ok? ==> y.sent == sent + ReadsOf(base, i, end) && y.out.value[..|got|] == got
  {
    if i < end {
      var x := Command(t, sent, ReadReq(Addr(base + i)));
      if x.out.Ok? {
        var g := got + [Low32(x.out.value)];
        ReadBackRequests(t, x.sent, base, i + 1, end, g);
        var y := ReadBack(t, x.sent, base, i + 1, end, g);
        assert ReadBack(t, sent, base, i, end, got) == y;
        if y.out.Ok? {
          assert y.sent == sent + ReadsOf(base, i, end) by {
            assert ReadsOf(base, i, end) == [ReadReq(Addr(base + i))] + ReadsOf(base, i + 1, end);
          }
          assert y.out.value[..|got|] == got by {
            assert y.out.value[..|got|] == y.out.value[..|g|][..|got|];
          }
        }
      }
    }
  }

  /** A successful read-back keeps the low half of each answer, in the order
      the reads were sent. */
  lemma {:induction false} ReadBackValues(t: Transport, sent: seq<Req>, base: nat, i: nat, end: nat,
                                          got: seq<bv32>)
    decreases end - i
    ensures var y := ReadBack(t, sent, base, i, end, got);
      y.out.Ok? ==>
        forall k :: |got| <= k < |y.out.value| ==>
          y.out.value[k] == Low32(t(y.sent[..|sent| + (k - |got|) + 1]).data)
  {
    if i < end {
      var x := Command(t, sent, ReadReq(Addr(base + i)));
      if x.out.Ok? {
        var g := got + [Low32(x.out.value)];
        ReadBackValues(t, x.sent, base, i + 1, end, g);
        ReadBackRequests(t, x.sent, base, i + 1, end, g);
        var y := ReadBack(t, x.sent, base, i + 1, end, g);
        assert ReadBack(t, sent, base, i, end, got) == y;
        if y.out.Ok? {
          assert y.sent[..|x.sent|] == x.sent;
          forall k | |got| <= k < |y.out.value|
            ensures y.out.value[k] == Low32(t(y.sent[..|sent| + (k - |got|) + 1]).data)
          {
            if k == |got| {
              assert y.out.value[k] == y.out.value[..|g|][k] == g[k];
            } else {
              assert |x.sent| + (k - |g|) + 1 == |sent| + (k - |got|) + 1;
            }
          }
        }
      }
    }
  }

  // ---------------------------------------------------------------------
  // The operations, as functions of the requests sent before them

  /** `read_chunk`: run the read program, then read back the result area. */
  function ReadChunkTraffic(t: Transport, sent: seq<Req>, xlen: nat, len: nat, taddr: bv64, fuel: nat)
    : Traffic<seq<bv32>>
    requires ValidXlen(xlen)
  {
    var image := Assembled(ReadChunkImage(xlen, len, taddr));
    ReadResultArea(t, Run(t, sent, image, |image|, ReadResultWord(xlen, len), fuel),
                   ReadResultWord(xlen, len), len)
  }

  /** The end of `read_chunk` after `run_program` gave `r`: word 0 of the
      chunk is the value it returned, the others are read from result words
      `1 .. len/4 - 1`, and the chunk is the first `len/4` words. */
  function ReadResultArea(t: Transport, r: Traffic<bv32>, rw: nat, len: nat): Traffic<seq<bv32>>
  {
    if r.out.Fail? then Traffic(r.sent, Fail(r.out.why))
    else
      var b := ReadBack(t, r.sent, rw, 1, len / 4, [r.out.value]);
      if b.out.Fail? then b else Traffic(b.sent, Ok(b.out.value[..len / 4]))
  }

  /** Drops the value of an outcome, keeping success or the failure. */
  function Done<T>(x: Traffic<T>): Traffic<()>
  {
    Traffic(x.sent, if x.out.Ok? then Ok(()) else Fail(x.out.why))
  }

  /** `write_chunk`: run the write program; its result word is not used. */
  function WriteChunkTraffic(t: Transport, sent: seq<Req>, xlen: nat, len: nat, taddr: bv64,
                             src: seq<bv32>, fuel: nat): Traffic<()>
    requires ValidXlen(xlen)
  {
    var image := Assembled(WriteChunkImage(xlen, len, taddr, src));
    Done(Run(t, sent, image, |image|, WriteDataWord(xlen, len), fuel))
  }

  /** `write_csr`: run the CSR write program, polling word 0. */
  function WriteCsrTraffic(t: Transport, sent: seq<Req>, xlen: nat, which: nat, data: bv64, fuel: nat)
    : Traffic<()>
    requires ValidXlen(xlen)
  {
    var image := Assembled(WriteCsrImage(xlen, which, data));
    Done(Run(t, sent, image, |image|, 0, fuel))
  }

  /** `read_csr`'s bus traffic: run the CSR read program, then on a 64-bit
      target read the upper half of the value. */
  function ReadCsrTraffic(t: Transport, sent: seq<Req>, xlen: nat, which: nat, fuel: nat): Traffic<()>
  {
    var p := ReadCsrProgram(xlen, which);
    var r := Run(t, sent, Assembled(p.slots), p.count, p.resultSlot, fuel);
    if r.out.Fail? || xlen != 64 then Done(r)
    else Done(Command(t, r.sent, ReadReq(Addr(CsrDataWord + 1))))
  }

  /** `get_xlen`: run the probe and accept only 32 or 64. */
  function GetXlenTraffic(t: Transport, sent: seq<Req>, fuel: nat): (y: Traffic<nat>)
    ensures y.out.Ok? ==> ValidXlen(y.out.value)
  {
    var p := GetXlenProgram();
    var r := Run(t, sent, Assembled(p.slots), p.count, p.resultSlot, fuel);
    if r.out.Fail? then Traffic(r.sent, Fail(r.out.why))
    else if r.out.value == 32 || r.out.value == 64 then Traffic(r.sent, Ok(r.out.value as nat))
    else Traffic(r.sent, Fail(BadXlen(r.out.value)))
  }

  /** What `read_chunk` returns: a chunk of `len/4` words, after reading
      result words `rw + 1 .. rw + len/4 - 1` once each in increasing order;
      word 0 is the value `run_program` returned and word `j > 0` is the low
      half of the answer to the read of result word `rw + j`. */
  lemma ReadResultAreaTraffic(t: Transport, r: Traffic<bv32>, rw: nat, len: nat)
    ensures var y := ReadResultArea(t, r, rw, len);
      y.out.Ok? ==>
        r.out.Ok? && |y.out.value| == len / 4 &&
        y.sent == r.sent + ReadsOf(rw, 1, len / 4) &&
        (len / 4 > 0 ==> y.out.value[0] == r.out.value) &&
        forall j :: 1 <= j < |y.out.value| ==> y.out.value[j] == Low32(t(y.sent[..|r.sent| + j]).data)
  {
    if r.out.Ok? {
      ReadBackRequests(t, r.sent, rw, 1, len / 4, [r.out.value]);
      ReadBackValues(t, r.sent, rw, 1, len / 4, [r.out.value]);
      var b := ReadBack(t, r.sent, rw, 1, len / 4, [r.out.value]);
      if b.out.Ok? {
        assert b.out.value[..1] == [r.out.value];
        var y := ReadResultArea(t, r, rw, len);
        forall j | 1 <= j < |y.out.value|
          ensures y.out.value[j] == Low32(t(y.sent[..|r.sent| + j]).data)
        {
          assert y.out.value[j] == b.out.value[j];
          assert |r.sent| + j == |r.sent| + (j - 1) + 1;
        }
      }
    }
  }

  // ---------------------------------------------------------------------
  // The driver

  /** The producer side of `dtm_t`: the requests it has sent, and the
      geometry `producer_thread` reads at start-up, given here at
      construction. */
  class Driver {
    const transport: Transport
    const dminfo: bv32
    const xlen: nat
    var sent: seq<Req>

    constructor (transport: Transport, dminfo: bv32, xlen: nat)
      ensures this.transport == transport && this.dminfo == dminfo && this.xlen == xlen
      ensures sent == []
    {
      this.transport := transport;
      this.dminfo := dminfo;
      this.xlen := xlen;
      sent := [];
    }

    /** `do_command`: one request, one response, status 0 required. */
    method DoCommand(r: Req) returns (o: Outcome<bv64>)
      modifies this
      ensures Traffic(sent, o) == Command(transport, old(sent), r)
    {
      sent := sent + [r];
      var rsp := transport(sent);
      if rsp.resp == 0 {
        o := Ok(rsp.data);
      } else {
        o := Fail(ProtocolFault(rsp.resp));
      }
    }

    method Read(addr: U32) returns (o: Outcome<bv64>)
      modifies this
      ensures sent == old(sent) + [Req(addr, OpRead, 0)]
      ensures Traffic(sent, o) == Command(transport, old(sent), ReadReq(addr))
    {
      o := DoCommand(Req(addr, 1, 0));
    }

    method Write(addr: U32, data: bv64) returns (o: Outcome<bv64>)
      modifies this
      ensures sent == old(sent) + [Req(addr, OpWrite, data)]
      ensures Traffic(sent, o) == Command(transport, old(sent), WriteReq(addr, data))
    {
      o := DoCommand(Req(addr, 2, data));
    }

    method Nop() returns (o: Outcome<()>)
      modifies this
      ensures sent == old(sent) + [Req(0, OpNop, 0)]
      ensures Traffic(sent, o) == Done(Command(transport, old(sent), NopReq))
    {
      var r := DoCommand(Req(0, 0, 0));
      o := if r.Ok? then Ok(()) else Fail(r.why);
    }

    /** `run_program`, polling at most `fuel` times. The source asserts that
        the program and the result word fit the window. */
    method RunProgram(program: seq<bv32>, n: nat, result: nat, fuel: nat) returns (o: Outcome<bv32>)
      requires n <= |program|
      requires n <= RamWords(dminfo) && result < RamWords(dminfo)
      modifies this
      ensures Traffic(sent, o) == Run(transport, old(sent), program, n, result, fuel)
    {
      var i := 0;
      while i < n
        invariant i <= n
        invariant Upload(transport, old(sent), program, n, 0) == Upload(transport, sent, program, n, i)
      {
        var w := Write(Addr(i), UploadWord(program, n, i));
        if w.Fail? {
          return Fail(w.why);
        }
        i := i + 1;
      }

      ghost var uploaded := sent;
      var f := fuel;
      while f > 0
        invariant Poll(transport, uploaded, result, fuel) == Poll(transport, sent, result, f)
      {
        var r := Read(Addr(result));
        if r.Fail? {
          return Fail(r.why);
        }
        if r.value & InterruptBit == 0 {
          return Ok(Low32(r.value));
        }
        f := f - 1;
      }
      o := Fail(Stalled);
    }

    /** `read_chunk`: the chunk comes back as `len/4` words. */
    method ReadChunk(taddr: bv64, len: nat, fuel: nat) returns (o: Outcome<seq<bv32>>)
      requires ChunkRequest(xlen, RamWords(dminfo), len)
      modifies this
      ensures Traffic(sent, o) == ReadChunkTraffic(transport, old(sent), xlen, len, taddr, fuel)
    {
      var p := BuildReadChunk(xlen, RamWords(dminfo), len, taddr);
      var first := RunProgram(Assembled(p.slots), p.count, p.resultSlot, fuel);
      if first.Fail? {
        return Fail(first.why);
      }
      ghost var ran := sent;
      var res := [first.value];
      var i := 1;
      while i < len / 4
        invariant |res| >= 1
        invariant ReadBack(transport, ran, p.resultSlot, 1, len / 4, [first.value]) ==
                  ReadBack(transport, sent, p.resultSlot, i, len / 4, res)
        decreases len / 4 - i
      {
        var w := Read(Addr(p.resultSlot + i));
        if w.Fail? {
          return Fail(w.why);
        }
        res := res + [Low32(w.value)];
        i := i + 1;
      }
      ReadBackRequests(transport, ran, p.resultSlot, 1, len / 4, [first.value]);
      o := Ok(res[..len / 4]);
    }

    /** `write_chunk`: `src` holds the `len/4` words to store. */
    method WriteChunk(taddr: bv64, len: nat, src: seq<bv32>, fuel: nat) returns (o: Outcome<()>)
      requires ChunkRequest(xlen, RamWords(dminfo), len) && |src| == len / 4
      modifies this
      ensures Traffic(sent, o) == WriteChunkTraffic(transport, old(sent), xlen, len, taddr, src, fuel)
    {
      var p := BuildWriteChunk(xlen, RamWords(dminfo), len, taddr, src);
      var r := RunProgram(Assembled(p.slots), p.count, p.resultSlot, fuel);
      o := if r.Ok? then Ok(()) else Fail(r.why);
    }

    /** `write_csr`. */
    method WriteCsr(which: nat, data: bv64, fuel: nat) returns (o: Outcome<()>)
      requires ValidXlen(xlen) && 6 <= RamWords(dminfo)
      modifies this
      ensures Traffic(sent, o) == WriteCsrTraffic(transport, old(sent), xlen, which, data, fuel)
    {
      var p := BuildWriteCsr(xlen, RamWords(dminfo), which, data);
      var r := RunProgram(Assembled(p.slots), p.count, p.resultSlot, fuel);
      o := if r.Ok? then Ok(()) else Fail(r.why);
    }

    /** `read_csr`'s bus traffic; the value it assembles is not returned. */
    method ReadCsr(which: nat, fuel: nat) returns (o: Outcome<()>)
      requires 5 <= RamWords(dminfo)
      modifies this
      ensures Traffic(sent, o) == ReadCsrTraffic(transport, old(sent), xlen, which, fuel)
    {
      var p := ReadCsrProgram(xlen, which);
      var r := RunProgram(Assembled(p.slots), p.count, p.resultSlot, fuel);
      if r.Fail? || xlen != 64 {
        o := if r.Ok? then Ok(()) else Fail(r.why);
      } else {
        var hi := Read(Addr(CsrDataWord + 1));
        o := if hi.Ok? then Ok(()) else Fail(hi.why);
      }
    }

    /** `get_xlen`: the probe needs a six-word window. */
    method GetXlen(fuel: nat) returns (o: Outcome<nat>)
      requires 6 <= RamWords(dminfo)
      modifies this
      ensures Traffic(sent, o) == GetXlenTraffic(transport, old(sent), fuel)
      ensures o.Ok? ==> o.value == 32 || o.value == 64
    {
      var p := GetXlenProgram();
      var r := RunProgram(Assembled(p.slots), p.count, p.resultSlot, fuel);
      if r.Fail? {
        return Fail(r.why);
      }
      if r.value == 32 || r.value == 64 {
        o := Ok(r.value as nat);
      } else {
        o := Fail(BadXlen(r.value));
      }
    }
  }
}

=== FILE: encoding.dfy ===
/** Immediate encoders of the RISC-V base instruction formats (I, S, SB, U, UJ),
    the field decoders that reverse them, and the base instruction words the
    debug-RAM programs OR an immediate into.

    Field layouts follow section 2.3 ("Immediate Encoding Variants") of the
    RISC-V Unprivileged ISA. Each encoder takes the low 32 bits of its argument:
    every encoder reads bits 20:0 at most, so the width of the caller's integer
    does not matter. */
module Encoding {

  /** An integer reduced modulo 2^32, as a C conversion to `uint32_t` does,
      built one bit at a time: `Bits(n, k)` is the low `k` bits of `n`. */
  function Word(n: int): bv32
  {
    Bits(n, 32)
  }

  function Bits(n: int, k: nat): bv32
    decreases k
  {
    if k == 0 then 0 else Push(Bits(n / 2, k - 1), n % 2 == 1)
  }

  /** Shifts one bit in at the bottom. */
  function Push(x: bv32, bit: bool): bv32
  {
    if bit then (x << 1) + 1 else x << 1
  }

  function Pow2(k: nat): (p: nat)
    ensures p > 0
  {
    if k == 0 then 1 else 2 * Pow2(k - 1)
  }

  /** The conversion keeps exactly the residue of `n` modulo 2^32; in
      particular it keeps every value in 0 .. 2^32 - 1. */
  lemma WordValue(n: int)
    ensures Word(n) as int == n % 0x1_0000_0000
  {
    BitsValue(n, 32);
    Pow2At32();
  }

  lemma {:induction false} BitsValue(n: int, k: nat)
    requires k <= 32
    ensures Bits(n, k) as int == n % Pow2(k)
    decreases k
  {
    if k > 0 {
      BitsValue(n / 2, k - 1);
      Pow2Le(k - 1);
      Pow2At32();
      var x := Bits(n / 2, k - 1);
      Below2p31(x);
      PushValue(x, n % 2 == 1);
      ModTwice(n, Pow2(k - 1));
    }
  }

  lemma {:induction false} Pow2Le(k: nat)
    requires k <= 31
    ensures Pow2(k) <= Pow2(31)
    decreases 31 - k
  {
    if k < 31 { Pow2Le(k + 1); }
  }

  lemma Pow2At32()
    ensures Pow2(32) == 0x1_0000_0000
  {
    assert Pow2(2) == 4;
    Pow2Add(2, 2);
    Pow2Add(4, 4);
    Pow2Add(8, 8);
    Pow2Add(16, 16);
  }

  lemma {:induction false} Pow2Add(a: nat, b: nat)
    ensures Pow2(a + b) == Pow2(a) * Pow2(b)
  {
    if a > 0 {
      Pow2Add(a - 1, b);
      assert Pow2(a + b) == 2 * Pow2(a - 1 + b);
    }
  }

  /** Shifting a bit in doubles the value and adds the bit. */
  lemma PushValue(x: bv32, bit: bool)
    requires x < 0x8000_0000
    ensures Push(x, bit) as int == 2 * (x as int) + (if bit then 1 else 0)
  {
    if bit { ShiftInOne(x); } else { ShiftInZero(x); }
  }

  // One bit-vector fact per lemma.

  lemma Below2p31(x: bv32)
    requires x as int < 0x8000_0000
    ensures x < 0x8000_0000
  {
  }

  lemma ShiftInZero(x: bv32)
    requires x < 0x8000_0000
    ensures (x << 1) as int == 2 * (x as int)
  {
  }

  lemma ShiftInOne(x: bv32)
    requires x < 0x8000_0000
    ensures ((x << 1) + 1) as int == 2 * (x as int) + 1
  {
  }

  lemma ModTwice(n: int, p: int)
    requires p > 0
    ensures n % (2 * p) == 2 * ((n / 2) % p) + n % 2
  {
    var q, r := n / 2, n % 2;
    var a, s := q / p, q % p;
    assert q == p * a + s;
    assert n == 2 * q + r;
    assert n == (2 * p) * a + (2 * s + r);
    ModUnique(n, 2 * p, a, 2 * s + r);
  }

  /** Euclidean division leaves one remainder in 0 .. d - 1. */
  lemma ModUnique(n: int, d: int, a: int, b: int)
    requires d > 0 && n == d * a + b && 0 <= b < d
    ensures n % d == b
  {
    var a' := n / d;
    var b' := n % d;
    assert d * a + b == d * a' + b';
    if a > a' {
      assert d * (a - a') == d * a - d * a';
      MulAtLeast(d, a - a');
    } else if a < a' {
      assert d * (a' - a) == d * a' - d * a;
      MulAtLeast(d, a' - a);
    }
  }

  lemma MulAtLeast(d: int, x: int)
    requires d > 0 && x >= 1
    ensures d * x >= d
  {
    assert d * x == d + d * (x - 1);
  }

  /** For a non-negative value below 2^12 (a debug-RAM byte address or a small
      offset) the conversion keeps the value below 2^12. */
  lemma WordBelow4096(n: int)
    requires 0 <= n < 0x1000
    ensures Word(n) < 0x1000
  {
    var w := Word(n);
    WordValue(n);
    ModUnique(n, 0x1_0000_0000, 0, n);
    Below4096(w);
  }

  lemma Below4096(x: bv32)
    requires x as int < 0x1000
    ensures x < 0x1000
  {
  }

  /** For an even value the conversion has bit 0 clear. */
  lemma WordEven(n: int)
    requires n % 2 == 0
    ensures Word(n) & 1 == 0
  {
  }

  /** The low and high 32-bit halves of a 64-bit value, as the C casts
      `(uint32_t)x` and `(uint32_t)(x >> 32)` take them. */
  function Low32(x: bv64): bv32 { (x & 0xFFFF_FFFF) as bv32 }
  function High32(x: bv64): bv32 { (x >> 32) as bv32 }

  /** Together the two halves give back the value. */
  lemma HalvesRebuild(x: bv64)
    ensures ((High32(x) as bv64) << 32) | (Low32(x) as bv64) == x
  {
  }

  /** A value below 2^12 passes the 12-bit field mask unchanged. */
  lemma Below4096Masked(x: bv32)
    requires x < 0x1000
    ensures x & 0xFFF == x
  {
  }

  /** An even value below 2^20 passes the UJ-type field mask unchanged. */
  lemma EvenBelow2p20Masked(x: bv32)
    requires x < 0x10_0000 && x & 1 == 0
    ensures x & 0x1F_FFFE == x
  {
  }

  // ---------------------------------------------------------------------
  // Immediate fields of each format, as masks over the instruction word

  const MaskI: bv32 := 0xFFF0_0000   // imm[11:0] at 31:20
  const MaskS: bv32 := 0xFE00_0F80   // imm[11:5] at 31:25, imm[4:0] at 11:7
  const MaskSB: bv32 := 0xFE00_0F80  // imm[12|10:5] at 31:25, imm[4:1|11] at 11:7
  const MaskU: bv32 := 0xFFFF_F000   // imm[31:12] at 31:12
  const MaskUJ: bv32 := 0xFFFF_F000  // imm[20|10:1|11|19:12] at 31:12

  // ---------------------------------------------------------------------
  // The fixed fields of an instruction word, as the ISA places them.

  function Opcode(w: bv32): bv32 { w & 0x7F }
  function Rd(w: bv32): bv32 { (w >> 7) & 0x1F }
  function Funct3(w: bv32): bv32 { (w >> 12) & 0x7 }
  function Rs1(w: bv32): bv32 { (w >> 15) & 0x1F }
  function Rs2(w: bv32): bv32 { (w >> 20) & 0x1F }
  function Funct7(w: bv32): bv32 { w >> 25 }

  // ---------------------------------------------------------------------
  // Decoders: the immediate an instruction word carries, as the ISA defines
  // it, zero-extended (bits above the format's top immediate bit are clear).

  function ImmI(w: bv32): bv32 { w >> 20 }

  function ImmS(w: bv32): bv32 { ((w >> 25) << 5) | ((w >> 7) & 0x1F) }

  function ImmSB(w: bv32): bv32
  {
    (((w >> 31) & 1) << 12) | (((w >> 7) & 1) << 11) |
    (((w >> 25) & 0x3F) << 5) | (((w >> 8) & 0xF) << 1)
  }

  function ImmU(w: bv32): bv32 { w & 0xFFFF_F000 }

  function ImmUJ(w: bv32): bv32
  {
    (((w >> 31) & 1) << 20) | (((w >> 12) & 0xFF) << 12) |
    (((w >> 20) & 1) << 11) | (((w >> 21) & 0x3FF) << 1)
  }

  /** Sign extension from the top immediate bit of each format. */
  function SignExtend12(v: bv32): bv32 { if v & 0x800 != 0 then v | 0xFFFF_F000 else v }
  function SignExtend13(v: bv32): bv32 { if v & 0x1000 != 0 then v | 0xFFFF_E000 else v }
  function SignExtend21(v: bv32): bv32 { if v & 0x10_0000 != 0 then v | 0xFFE0_0000 else v }

  // ---------------------------------------------------------------------
  // Encoders (ENCODE_*_IMM). Each sets bits only inside its own format's
  // immediate field, and decoding gives back the offset bits it placed.

  function EncodeI(x: bv32): (r: bv32)
    ensures r & !MaskI == 0
    ensures ImmI(r) == x & 0xFFF
  {
    (x & 0xFFF) << 20
  }

  function EncodeS(x: bv32): (r: bv32)
    ensures r & !MaskS == 0
    ensures ImmS(r) == x & 0xFFF
  {
    ((x & 0x1F) << 7) | (((x >> 5) & 0x7F) << 25)
  }

  function EncodeSB(x: bv32): (r: bv32)
    ensures r & !MaskSB == 0
    ensures ImmSB(r) == x & 0x1FFE
  {
    (((x >> 1) & 0xF) << 8) | (((x >> 5) & 0x3F) << 25) |
    (((x >> 11) & 1) << 7) | (((x >> 12) & 1) << 31)
  }

  function EncodeU(x: bv32): (r: bv32)
    ensures r & !MaskU == 0
    ensures ImmU(r) == x & 0xFFFF_F000
  {
    ((x >> 12) & 0xF_FFFF) << 12
  }

  function EncodeUJ(x: bv32): (r: bv32)
    ensures r & !MaskUJ == 0
    ensures ImmUJ(r) == x & 0x1F_FFFE
  {
    (((x >> 1) & 0x3FF) << 21) | (((x >> 11) & 1) << 20) |
    (((x >> 12) & 0xFF) << 12) | (((x >> 20) & 1) << 31)
  }

  // ---------------------------------------------------------------------
  // Signed round trips: every offset the format can represent (two's
  // complement, even where the format drops bit 0) comes back exactly,
  // sign included.

  predicate FitsSigned12(x: bv32) { x < 0x800 || x >= 0xFFFF_F800 }
  predicate FitsBranch(x: bv32) { x & 1 == 0 && (x < 0x1000 || x >= 0xFFFF_F000) }
  predicate FitsJump(x: bv32) { x & 1 == 0 && (x < 0x10_0000 || x >= 0xFFF0_0000) }

  lemma SignedRoundTripI(x: bv32)
    requires FitsSigned12(x)
    ensures SignExtend12(ImmI(EncodeI(x))) == x
  {
    if x < 0x800 { Extend12Low(x); } else { Extend12High(x); }
  }

  lemma SignedRoundTripS(x: bv32)
    requires FitsSigned12(x)
    ensures SignExtend12(ImmS(EncodeS(x))) == x
  {
    if x < 0x800 { Extend12Low(x); } else { Extend12High(x); }
  }

  lemma SignedRoundTripSB(x: bv32)
    requires FitsBranch(x)
    ensures SignExtend13(ImmSB(EncodeSB(x))) == x
  {
    if x < 0x1000 { Extend13Low(x); } else { Extend13High(x); }
  }

  lemma RoundTripU(x: bv32)
    requires x & 0xFFF == 0
    ensures ImmU(EncodeU(x)) == x
  {
  }

  lemma SignedRoundTripUJ(x: bv32)
    requires FitsJump(x)
    ensures SignExtend21(ImmUJ(EncodeUJ(x))) == x
  {
    if x < 0x10_0000 { Extend21Low(x); } else { Extend21High(x); }
  }

  // One bit-vector fact per lemma: the solver handles each alone at once,
  // but not a disjunction of them.

  lemma Extend12Low(x: bv32)
    requires x < 0x800
    ensures SignExtend12(x & 0xFFF) == x
  {
  }

  lemma Extend12High(x: bv32)
    requires x >= 0xFFFF_F800
    ensures SignExtend12(x & 0xFFF) == x
  {
  }

  lemma Extend13Low(x: bv32)
    requires x & 1 == 0 && x < 0x1000
    ensures SignExtend13(x & 0x1FFE) == x
  {
  }

  lemma Extend13High(x: bv32)
    requires x & 1 == 0 && x >= 0xFFFF_F000
    ensures SignExtend13(x & 0x1FFE) == x
  {
  }

  lemma Extend21Low(x: bv32)
    requires x & 1 == 0 && x < 0x10_0000
    ensures SignExtend21(x & 0x1F_FFFE) == x
  {
  }

  lemma Extend21High(x: bv32)
    requires x & 1 == 0 && x >= 0xFFF0_0000
    ensures SignExtend21(x & 0x1F_FFFE) == x
  {
  }

  // ---------------------------------------------------------------------
  // Base instruction words. Register numbers: zero = x0, s0 = x8, s1 = x9.

  const LoadWordS0: bv32 := 0x0000_2403        // lw   s0, 0(zero)
  const LoadDoubleS0: bv32 := 0x0000_3403      // ld   s0, 0(zero)
  const LoadWordS1FromS0: bv32 := 0x0004_2483  // lw   s1, 0(s0)
  const LoadDoubleS1FromS0: bv32 := 0x0004_3483 // ld  s1, 0(s0)
  const StoreWordS1: bv32 := 0x0090_2023       // sw   s1, 0(zero)
  const StoreDoubleS1: bv32 := 0x0090_3023     // sd   s1, 0(zero)
  const LoadWordS1: bv32 := 0x0000_2483        // lw   s1, 0(zero)
  const StoreWordS1ToS0: bv32 := 0x0094_2023   // sw   s1, 0(s0)
  const LoadDoubleS1: bv32 := 0x0000_3483      // ld   s1, 0(zero)
  const StoreDoubleS1ToS0: bv32 := 0x0094_3023 // sd   s1, 0(s0)
  const CsrWriteS0: bv32 := 0x0004_1073        // csrrw zero, csr, s0
  const CsrReadS0: bv32 := 0x0000_2473         // csrrs s0, csr, zero
  const StoreWordS0: bv32 := 0x0080_2023       // sw   s0, 0(zero)
  const StoreDoubleS0: bv32 := 0x0080_3023     // sd   s0, 0(zero)
  const JalZero: bv32 := 0x6F                  // jal  zero, 0

  /** Every base word that gets an I-type immediate OR-ed in has that field clear,
      and likewise for the S-type and UJ-type bases. */
  lemma BaseWordsHaveClearFields()
    ensures LoadWordS0 & MaskI == 0 && LoadDoubleS0 & MaskI == 0
    ensures LoadWordS1FromS0 & MaskI == 0 && LoadDoubleS1FromS0 & MaskI == 0
    ensures LoadWordS1 & MaskI == 0 && LoadDoubleS1 & MaskI == 0
    ensures CsrWriteS0 & MaskI == 0 && CsrReadS0 & MaskI == 0
    ensures StoreWordS1 & MaskS == 0 && StoreDoubleS1 & MaskS == 0
    ensures StoreWordS1ToS0 & MaskS == 0 && StoreDoubleS1ToS0 & MaskS == 0
    ensures StoreWordS0 & MaskS == 0 && StoreDoubleS0 & MaskS == 0
    ensures JalZero & MaskUJ == 0
  {
  }

  /** OR-ing an encoded immediate into a base word whose field is clear keeps
      the opcode and register bits of the base and carries exactly the offset
      bits of the immediate. */
  lemma InsertI(base: bv32, x: bv32)
    requires base & MaskI == 0
    ensures (base | EncodeI(x)) & !MaskI == base
    ensures ImmI(base | EncodeI(x)) == x & 0xFFF
  {
  }

  lemma InsertS(base: bv32, x: bv32)
    requires base & MaskS == 0
    ensures (base | EncodeS(x)) & !MaskS == base
    ensures ImmS(base | EncodeS(x)) == x & 0xFFF
  {
  }

  /** An offset below 2^12 OR-ed into a clear I field decodes to itself. */
  lemma InsertSmallI(base: bv32, x: bv32)
    requires base & MaskI == 0 && x < 0x1000
    ensures (base | EncodeI(x)) & !MaskI == base
    ensures ImmI(base | EncodeI(x)) == x
  {
    InsertI(base, x);
    Below4096Masked(x);
  }

  /** An offset below 2^12 OR-ed into a clear S field decodes to itself. */
  lemma InsertSmallS(base: bv32, x: bv32)
    requires base & MaskS == 0 && x < 0x1000
    ensures (base | EncodeS(x)) & !MaskS == base
    ensures ImmS(base | EncodeS(x)) == x
  {
    InsertS(base, x);
    Below4096Masked(x);
  }

  lemma InsertUJ(base: bv32, x: bv32)
    requires base & MaskUJ == 0
    ensures (base | EncodeUJ(x)) & !MaskUJ == base
    ensures ImmUJ(base | EncodeUJ(x)) == x & 0x1F_FFFE
  {
  }
}

=== FILE: geometry.dfy ===
/** Target geometry of the debug module: where the debug RAM window sits, the
    ROM address a debug program returns to, how many 32-bit words the window
    holds (read from the `dminfo` register), and how many bytes one chunked
    transfer may move for a given register width `xlen`. */
module Geometry {

  /** Byte address of debug RAM word 0 (`ram_base()`). */
  const RamBase: int := 0x400
  /** Byte address the debug program jumps to when done (`rom_ret()`). */
  const RomRet: int := 0x804
  /** `size_t` on the host: the chunk-size arithmetic is done modulo 2^64. */
  const SizeModulus: int := 0x1_0000_0000_0000_0000

  /** Number of 32-bit words in the debug RAM window (`ram_words()`): the
      6-bit field dminfo[15:10], plus one. */
  function RamWords(dminfo: bv32): (n: nat)
    ensures 1 <= n <= 64
  {
    (((dminfo >> 10) & 63) as int) + 1
  }

  /** `ram_words()` reads bits 15:10 of dminfo and nothing else. */
  lemma RamWordsReadsOnlyItsField(a: bv32, b: bv32)
    requires a & 0xFC00 == b & 0xFC00
    ensures RamWords(a) == RamWords(b)
  {
    SameField(a, b);
  }

  lemma SameField(a: bv32, b: bv32)
    requires a & 0xFC00 == b & 0xFC00
    ensures (a >> 10) & 63 == (b >> 10) & 63
  {
  }

  /** `ram_words()` is the field dminfo[15:10] plus one. */
  lemma RamWordsIsFieldPlusOne(dminfo: bv32)
    ensures RamWords(dminfo) == ((dminfo & 0xFC00) >> 10) as int + 1
  {
    FieldShift(dminfo);
  }

  lemma FieldShift(dminfo: bv32)
    ensures (dminfo >> 10) & 63 == (dminfo & 0xFC00) >> 10
  {
  }

  /** Byte address of debug RAM word `w`. */
  function SlotAddress(w: nat): int
  {
    RamBase + 4 * w
  }

  /** Every debug RAM word has a byte address in 0x400..0x4FC: a non-negative
      12-bit I/S immediate reaches it from register zero, and the jump from
      it back to `rom_ret()` is a positive multiple of 4 below 2^20. */
  lemma SlotAddressInWindow(dminfo: bv32, w: nat)
    requires w < RamWords(dminfo)
    ensures RamBase <= SlotAddress(w) <= 0x4FC
    ensures SlotAddress(w) < 0x800
    ensures 0 < RomRet - SlotAddress(w) < 0x10_0000
    ensures (RomRet - SlotAddress(w)) % 4 == 0
  {
  }

  // ---------------------------------------------------------------------
  // Register width and chunk sizes

  /** The register widths the driver supports. */
  predicate ValidXlen(xlen: nat)
  {
    xlen == 32 || xlen == 64
  }

  /** Bytes moved by one load/store pair (`chunk_align()`); a chunk length must
      be a multiple of it. */
  function ChunkAlign(xlen: nat): (r: nat)
    requires ValidXlen(xlen)
    ensures r * 8 == xlen && (r == 4 || r == 8)
  {
    xlen / 8
  }

  /** The smallest window in which `chunk_max_size()` does not wrap around. */
  function MinRamWords(xlen: nat): nat
  {
    if xlen == 32 then 4 else 6
  }

  /** `chunk_max_size()` exactly as written: `ram_words()` is a `size_t`, so
      the subtraction wraps modulo 2^64 when the window is smaller than
      `MinRamWords(xlen)`. */
  function ChunkMaxSizeAsWritten(xlen: nat, ramWords: nat): (r: nat)
    ensures r < SizeModulus
  {
    if xlen == 32 then (4 * (((ramWords - 4) % SizeModulus) / 3)) % SizeModulus
    else (8 * (((ramWords - 6) % SizeModulus) / 4)) % SizeModulus
  }

  /** A one-word window on a 32-bit target: the wrapped subtraction makes
      `chunk_max_size()` report about 6 * 10^18 bytes, far more than the 4-byte
      window can hold, so a caller that trusts it builds a program that
      overruns the window. */
  lemma ChunkMaxSizeWrapsOnSmallWindow()
    ensures ChunkMaxSizeAsWritten(32, 1) == 6148914691236517200
    ensures ChunkMaxSizeAsWritten(32, 1) > 4 * RamWords(0)
  {
    assert (1 - 4) % SizeModulus == SizeModulus - 3;
  }

  /** `chunk_max_size()` with the wrap removed: a window smaller than
      `MinRamWords(xlen)` allows no bytes. A zero size alone does not keep a
      program inside the window (even an empty read chunk uploads three words
      on a 32-bit target); what does is `ChunkRequest`, which also demands a
      window of at least `MinRamWords(xlen)` words. This is the definition the
      rest of the model uses. */
  function ChunkMaxSize(xlen: nat, ramWords: nat): (r: nat)
    requires ValidXlen(xlen)
    ensures r % ChunkAlign(xlen) == 0
  {
    if ramWords < MinRamWords(xlen) then 0
    else if xlen == 32 then 4 * ((ramWords - 4) / 3)
    else 8 * ((ramWords - 6) / 4)
  }

  /** The allowed chunk is a whole number of load/store units and never more
      bytes than the window itself holds, whatever the window size. */
  lemma ChunkMaxSizeWithinWindow(xlen: nat, ramWords: nat)
    requires ValidXlen(xlen)
    ensures ChunkMaxSize(xlen, ramWords) % ChunkAlign(xlen) == 0
    ensures ChunkMaxSize(xlen, ramWords) <= 4 * ramWords
  {
    if ramWords >= MinRamWords(xlen) {
      if xlen == 32 {
        var q := (ramWords - 4) / 3;
        assert ChunkMaxSize(xlen, ramWords) == 4 * q;
        assert q <= ramWords;
      } else {
        var q := (ramWords - 6) / 4;
        assert ChunkMaxSize(xlen, ramWords) == 8 * q;
        assert 2 * q <= ramWords;
      }
    }
  }

  /** Wherever the source's arithmetic does not wrap, the two agree. */
  lemma ChunkMaxSizeAgreesWithSource(xlen: nat, ramWords: nat)
    requires ValidXlen(xlen) && MinRamWords(xlen) <= ramWords <= 64
    ensures ChunkMaxSizeAsWritten(xlen, ramWords) == ChunkMaxSize(xlen, ramWords)
  {
    assert (ramWords - MinRamWords(xlen)) % SizeModulus == ramWords - MinRamWords(xlen);
  }

  /** A larger debug RAM never allows a smaller chunk. */
  lemma ChunkMaxSizeMonotonic(xlen: nat, small: nat, large: nat)
    requires ValidXlen(xlen) && small <= large
    ensures ChunkMaxSize(xlen, small) <= ChunkMaxSize(xlen, large)
  {
    if small >= MinRamWords(xlen) {
      if xlen == 32 {
        assert (small - 4) / 3 <= (large - 4) / 3;
      } else {
        assert (small - 6) / 4 <= (large - 6) / 4;
      }
    }
  }

  /** A chunked transfer the synthesizers accept: a supported width, a window
      at least `MinRamWords(xlen)` words long, and a length that is a multiple
      of `chunk_align()` no larger than `chunk_max_size()`. */
  predicate ChunkRequest(xlen: nat, ramWords: nat, len: nat)
  {
    ValidXlen(xlen) && MinRamWords(xlen) <= ramWords <= 64 &&
    len % ChunkAlign(xlen) == 0 && len <= ChunkMaxSize(xlen, ramWords)
  }
}

=== FILE: handshake.dfy ===
/** The clocked side of `dtm_t`: `tick` drives the debug-bus request and
    response handshake once per cycle. It offers the pending request until
    the bus takes it, then waits for the response and hands it to the driver.

    The semaphore hand-offs are replaced by parameters: the request the
    driver has queued is an argument of each tick (it is taken only when the
    machine is idle), and the response a tick accepts is kept in `respBuf`. */
module Handshake {
  import opened Bus

  /** `req_wait`, `resp_wait`, `pending_req` and `resp_buf`. */
  datatype State = State(reqWait: bool, respWait: bool, pendingReq: Req, respBuf: Resp)

  /** The outputs of one tick and the state after it; `took` says whether
      the tick took the queued request. */
  datatype Step = Step(next: State, reqValid: bool, reqBits: Req, respReady: bool, took: bool)

  /** The machine never waits for the bus to take a request and for a
      response at once. */
  predicate Exclusive(s: State)
  {
    !(s.reqWait && s.respWait)
  }

  /** The request half of a tick: the if-chain on `resp_wait`, `req_wait`
      and `req_ready`, giving `req_valid` and the state before the response
      is looked at. */
  function RequestPhase(s: State, reqReady: bool, queued: Req): (bool, State)
  {
    if s.respWait then (false, s)
    else if !s.reqWait then (true, s.(reqWait := true, pendingReq := queued))
    else if reqReady then (false, s.(reqWait := false, respWait := true))
    else (true, s)
  }

  /** The source asserts `resp_wait` when a response arrives, after the
      request half has run: a response is legal only while one is awaited. */
  predicate Legal(s: State, reqReady: bool, respValid: bool)
  {
    respValid ==> RequestPhase(s, reqReady, s.pendingReq).1.respWait
  }

  /** One call of `tick`. */
  function Transition(s: State, reqReady: bool, respValid: bool, respBits: Resp, queued: Req): (r: Step)
    requires Legal(s, reqReady, respValid)
    ensures Exclusive(s) ==> Exclusive(r.next)
    ensures s.respWait ==> !r.reqValid
    ensures r.respReady && r.reqBits == r.next.pendingReq
    ensures r.took <==> !s.reqWait && !s.respWait
    ensures r.took ==> r.reqValid && r.next.reqWait && r.reqBits == queued
    ensures !r.took ==> r.next.pendingReq == s.pendingReq
    ensures s.reqWait && !s.respWait && !respValid ==>
      if reqReady then r.next == s.(reqWait := false, respWait := true) && !r.reqValid
      else r.next == s && r.reqValid
    ensures s.respWait && !respValid ==> r.next == s && !r.reqValid
    ensures respValid ==> !r.next.respWait && r.next.respBuf == respBits
    ensures Exclusive(s) && respValid ==> !r.next.reqWait && !r.next.respWait && !r.reqValid
    ensures !respValid ==> r.next.respBuf == s.respBuf
  {
    var (reqValid, s1) := RequestPhase(s, reqReady, queued);
    var s2 := if respValid then s1.(respWait := false, respBuf := respBits) else s1;
    Step(s2, reqValid, s2.pendingReq, true, !s.respWait && !s.reqWait)
  }

  /** The inputs of one cycle. */
  datatype Inputs = Inputs(reqReady: bool, respValid: bool, respBits: Resp, queued: Req)

  /** Every response in `ins` arrives while one is awaited. */
  predicate LegalRun(s: State, ins: seq<Inputs>)
    decreases |ins|
  {
    |ins| == 0 ||
    (Legal(s, ins[0].reqReady, ins[0].respValid) &&
     LegalRun(Transition(s, ins[0].reqReady, ins[0].respValid, ins[0].respBits, ins[0].queued).next, ins[1..]))
  }

  /** The state after ticking through `ins`. */
  function RunTicks(s: State, ins: seq<Inputs>): State
    requires LegalRun(s, ins)
    decreases |ins|
  {
    if |ins| == 0 then s
    else RunTicks(Transition(s, ins[0].reqReady, ins[0].respValid, ins[0].respBits, ins[0].queued).next, ins[1..])
  }

  /** From the constructor's state, with neither flag set, no sequence of
      legal cycles reaches a state with both flags set. */
  lemma {:induction false} RunStaysExclusive(s: State, ins: seq<Inputs>)
    requires Exclusive(s) && LegalRun(s, ins)
    decreases |ins|
    ensures Exclusive(RunTicks(s, ins))
  {
    if |ins| > 0 {
      var i := ins[0];
      RunStaysExclusive(Transition(s, i.reqReady, i.respValid, i.respBits, i.queued).next, ins[1..]);
    }
  }

  /** The handshake state of `dtm_t`, updated in place by `tick`. */
  class Dtm {
    var reqWait: bool
    var respWait: bool
    var pendingReq: Req
    var respBuf: Resp

    function Current(): State
      reads this
    {
      State(reqWait, respWait, pendingReq, respBuf)
    }

    /** The flags the constructor clears; `pending_req` and `resp_buf` are
        left uninitialised by the source and are given here. */
    constructor (pending: Req, buffered: Resp)
      ensures !reqWait && !respWait
      ensures pendingReq == pending && respBuf == buffered
      ensures Exclusive(Current())
    {
      reqWait := false;
      respWait := false;
      pendingReq := pending;
      respBuf := buffered;
    }

    /** `tick`, with the request the driver has queued as `queued`. */
    method Tick(reqReady: bool, respValid: bool, respBits: Resp, queued: Req)
      returns (reqValid: bool, reqBits: Req, respReady: bool)
      requires Legal(Current(), reqReady, respValid)
      modifies this
      ensures var r := Transition(old(Current()), reqReady, respValid, respBits, queued);
        Current() == r.next && reqValid == r.reqValid && reqBits == r.reqBits && respReady == r.respReady
    {
      if respWait {
        reqValid := false;
      } else if !reqWait {
        reqValid := true;
        reqWait := true;
        pendingReq := queued;
      } else if reqReady {
        reqValid := false;
        reqWait := false;
        respWait := true;
      } else {
        reqValid := true;
      }

      reqBits := pendingReq;

      respReady := true;
      if respValid {
        respWait := false;
        respBuf := respBits;
      }
    }
  }
}

=== FILE: programs.dfy ===
/** The debug-RAM programs the driver uploads: chunked memory read and write,
    CSR write and read, and the XLEN probe.

    A program is a sequence of RAM words. Each word is kept as the source
    composes it, a base instruction word with an I-, S- or UJ-type immediate
    OR-ed in, or a raw 32-bit word; `Assemble` gives the 32-bit value that is
    stored in debug RAM. The chunk programs are built in a local array of
    `ram_words()` words, as the source builds them, and each builder is proved
    to produce the image that a slot-by-slot specification function
    describes. The lemmas then state what that image means: it fits the
    window, each load and store addresses the RAM word it should, and the
    program returns to `rom_ret()` from the right slot. */
module Programs {
  import opened Encoding
  import opened Geometry

  /** One RAM word of a debug program. */
  datatype Slot =
    | Raw(word: bv32)
    | IType(base: bv32, imm: int)
    | SType(base: bv32, imm: int)
    | UJType(base: bv32, imm: int)

  /** The 32-bit word the source stores: `base | ENCODE_*_IMM(imm)`, the
      immediate taken modulo 2^32 as the assignment to `uint32_t` does. */
  function Assemble(s: Slot): bv32
  {
    match s
    case Raw(w) => w
    case IType(b, x) => b | EncodeI(Word(x))
    case SType(b, x) => b | EncodeS(Word(x))
    case UJType(b, x) => b | EncodeUJ(Word(x))
  }

  /** The RAM image of a sequence of slots. */
  function Assembled(slots: seq<Slot>): (ws: seq<bv32>)
    ensures |ws| == |slots|
    ensures forall k :: 0 <= k < |slots| ==> ws[k] == Assemble(slots[k])
  {
    seq(|slots|, k requires 0 <= k < |slots| => Assemble(slots[k]))
  }

  /** A program ready for `run_program`: its RAM words, how many of them to
      upload, and the RAM word holding the result. */
  datatype Program = Program(slots: seq<Slot>, count: nat, resultSlot: nat)

  // ---------------------------------------------------------------------
  // What an assembled word carries

  /** A non-negative I-type offset below 2^12 survives assembly exactly: the
      base word's opcode and register bits are kept, and the decoded
      immediate is the offset itself. */
  lemma AssembleIType(b: bv32, x: int)
    requires b & MaskI == 0 && 0 <= x < 0x1000
    ensures Assemble(IType(b, x)) & !MaskI == b
    ensures ImmI(Assemble(IType(b, x))) as int == x
  {
    var w := Word(x);
    SmallWord(x);
    InsertSmallI(b, w);
    ImmAsInt(ImmI(Assemble(IType(b, x))), w, x);
  }

  /** Likewise for an S-type offset. */
  lemma AssembleSType(b: bv32, x: int)
    requires b & MaskS == 0 && 0 <= x < 0x1000
    ensures Assemble(SType(b, x)) & !MaskS == b
    ensures ImmS(Assemble(SType(b, x))) as int == x
  {
    var w := Word(x);
    SmallWord(x);
    InsertSmallS(b, w);
    ImmAsInt(ImmS(Assemble(SType(b, x))), w, x);
  }

  /** Likewise for an even UJ-type offset. */
  lemma AssembleUJType(b: bv32, x: int)
    requires b & MaskUJ == 0 && 0 <= x < 0x800 && x % 2 == 0
    ensures Assemble(UJType(b, x)) & !MaskUJ == b
    ensures ImmUJ(Assemble(UJType(b, x))) as int == x
  {
    SmallWord(x);
    InsertUJ(b, Word(x));
    WordEven(x);
    EvenBelow2p20Masked(Word(x));
  }

  lemma ImmAsInt(imm: bv32, w: bv32, x: int)
    requires imm == w && w as int == x
    ensures imm as int == x
  {
  }

  /** A small non-negative value converts to a word with the same value. */
  lemma SmallWord(x: int)
    requires 0 <= x < 0x1000
    ensures Word(x) < 0x1000 && Word(x) as int == x
  {
    WordValue(x);
    ModUnique(x, 0x1_0000_0000, 0, x);
    WordBelow4096(x);
  }

  // ---------------------------------------------------------------------
  // The return jump

  /** `jal zero, rom_ret() - (address of RAM word slot)`: the instruction that
      ends every program, placed at RAM word `slot`. */
  function ReturnJump(slot: nat): Slot
  {
    UJType(JalZero, RomRet - (RamBase + slot * 4))
  }

  /** The jump is a `jal` that writes no register (opcode 0x6F, rd = zero),
      and its offset, taken from RAM word `slot`, lands exactly on
      `rom_ret()`. */
  lemma ReturnJumpLandsOnRom(slot: nat)
    requires slot < 64
    ensures Assemble(ReturnJump(slot)) & !MaskUJ == JalZero
    ensures ImmUJ(Assemble(ReturnJump(slot))) as int + SlotAddress(slot) == RomRet
  {
    BaseWordsHaveClearFields();
    AssembleUJType(JalZero, RomRet - (RamBase + slot * 4));
  }

  /** The two hard-coded return words of the CSR programs and the XLEN probe
      are the jump the encoder builds for their slots. */
  lemma ReturnWordAtSlot2()
    ensures Assemble(ReturnJump(2)) == 0x3fc0_006f
  {
    SmallWord(0x3FC);
    assert Word(0x3FC) == 0x3FC;
  }

  lemma ReturnWordAtSlot5()
    ensures Assemble(ReturnJump(5)) == 0x3f00_006f
  {
    SmallWord(0x3F0);
    assert Word(0x3F0) == 0x3F0;
  }

  // ---------------------------------------------------------------------
  // Chunk geometry shared by read_chunk and write_chunk

  /** Number of load/store units in a chunk of `len` bytes. */
  function Units(xlen: nat, len: nat): nat
    requires ValidXlen(xlen)
  {
    len / (xlen / 8)
  }

  /** Each unit costs two instruction words plus `xlen/32` data words, on top
      of a fixed overhead of `MinRamWords(xlen)` words (the address load, the
      jump and the target address); an accepted chunk fits that budget. */
  lemma UnitsFit(xlen: nat, ramWords: nat, len: nat)
    requires ChunkRequest(xlen, ramWords, len)
    ensures Units(xlen, len) * (2 + xlen / 32) + MinRamWords(xlen) <= ramWords
    ensures len / 4 == Units(xlen, len) * (xlen / 32)
  {
    var u := Units(xlen, len);
    if xlen == 32 {
      assert len == 4 * u;
      var q := (ramWords - 4) / 3;
      assert 4 * u <= 4 * q;
      assert 3 * q <= ramWords - 4;
    } else {
      assert len == 8 * u;
      var q := (ramWords - 6) / 4;
      assert 8 * u <= 8 * q;
      assert 4 * q <= ramWords - 6;
    }
  }

  /** Base words of the chunk programs, by register width. */
  function LoadAddressBase(xlen: nat): bv32 { if xlen == 32 then LoadWordS0 else LoadDoubleS0 }
  function LoadUnitFromTargetBase(xlen: nat): bv32 { if xlen == 32 then LoadWordS1FromS0 else LoadDoubleS1FromS0 }
  function StoreUnitToRamBase(xlen: nat): bv32 { if xlen == 32 then StoreWordS1 else StoreDoubleS1 }
  function LoadUnitFromRamBase(xlen: nat): bv32 { if xlen == 32 then LoadWordS1 else LoadDoubleS1 }
  function StoreUnitToTargetBase(xlen: nat): bv32 { if xlen == 32 then StoreWordS1ToS0 else StoreDoubleS1ToS0 }

  // ---------------------------------------------------------------------
  // read_chunk

  /** First RAM word of the result area. The target address is stored there
      too, and is overwritten by the first result. */
  function ReadResultWord(xlen: nat, len: nat): nat
    requires ValidXlen(xlen)
  {
    2 + Units(xlen, len) * 2
  }

  function ReadProgWords(xlen: nat, len: nat): nat
    requires ValidXlen(xlen)
  {
    ReadResultWord(xlen, len) + xlen / 32
  }

  /** Unit `i` is loaded from the target at byte offset `i * chunk_align()`
      from the address in s0 ... */
  function ReadUnitLoad(xlen: nat, i: nat): Slot
  {
    IType(LoadUnitFromTargetBase(xlen), if xlen == 32 then i * 4 else i * 8)
  }

  /** ... and stored into the result area. */
  function ReadUnitStore(xlen: nat, len: nat, i: nat): Slot
    requires ValidXlen(xlen)
  {
    var rw := ReadResultWord(xlen, len);
    SType(StoreUnitToRamBase(xlen),
          if xlen == 32 then RamBase + (rw + i) * 4 else RamBase + (rw / 2 + i) * 8)
  }

  /** Word `k` of the read program: word 0 loads the target address into s0,
      words 2i+1 and 2i+2 move unit i, word `result_word - 1` jumps back to
      `rom_ret()`, and `addr_word` (which is `result_word`) and the word after
      it hold the target address. */
  function ReadChunkSlot(xlen: nat, len: nat, taddr: bv64, k: nat): Slot
    requires ValidXlen(xlen)
  {
    var rw := ReadResultWord(xlen, len);
    if k == 0 then IType(LoadAddressBase(xlen), RamBase + rw * 4)
    else if k < rw - 1 then
      if k % 2 == 1 then ReadUnitLoad(xlen, (k - 1) / 2) else ReadUnitStore(xlen, len, (k - 1) / 2)
    else if k == rw - 1 then ReturnJump(rw - 1)
    else if k == rw then Raw(Low32(taddr))
    else Raw(High32(taddr))
  }

  /** The uploaded part of the read program. */
  function ReadChunkImage(xlen: nat, len: nat, taddr: bv64): seq<Slot>
    requires ValidXlen(xlen)
  {
    seq(ReadProgWords(xlen, len), k requires 0 <= k => ReadChunkSlot(xlen, len, taddr, k))
  }

  /** A sequence with the address load, the unit loads and stores, the
      return jump and the target address at their words is the read image. */
  lemma ReadChunkImageBySlots(xlen: nat, len: nat, taddr: bv64, s: seq<Slot>)
    requires ValidXlen(xlen) && |s| == ReadProgWords(xlen, len)
    requires s[0] == ReadChunkSlot(xlen, len, taddr, 0)
    requires forall j :: 0 <= j < Units(xlen, len) ==>
      s[2 * j + 1] == ReadUnitLoad(xlen, j) && s[2 * j + 2] == ReadUnitStore(xlen, len, j)
    requires s[ReadResultWord(xlen, len) - 1] == ReturnJump(ReadResultWord(xlen, len) - 1)
    requires s[ReadResultWord(xlen, len)] == Raw(Low32(taddr))
    requires xlen == 64 ==> s[ReadResultWord(xlen, len) + 1] == Raw(High32(taddr))
    ensures s == ReadChunkImage(xlen, len, taddr)
  {
    var img := ReadChunkImage(xlen, len, taddr);
    forall k | 0 <= k < |s|
      ensures s[k] == img[k]
    {
      if 1 <= k < ReadResultWord(xlen, len) - 1 {
        var j := (k - 1) / 2;
        assert k == 2 * j + 1 || k == 2 * j + 2;
      }
    }
  }

  /** `read_chunk`'s program synthesis, on a local array of `ram_words()`
      words. The array writes are checked against its length, so every index
      the source writes (including `addr_word + 1`, one past the uploaded part
      on a 32-bit target) lies inside the window. */
  method BuildReadChunk(xlen: nat, ramWords: nat, len: nat, taddr: bv64) returns (p: Program)
    requires ChunkRequest(xlen, ramWords, len)
    ensures p.count == |p.slots| == ReadProgWords(xlen, len) <= ramWords
    ensures p.resultSlot == ReadResultWord(xlen, len) < ramWords
    ensures p.slots == ReadChunkImage(xlen, len, taddr)
  {
    var prog := FillReadChunk(xlen, ramWords, len, taddr);
    var resultWord := 2 + (len / (xlen / 8)) * 2;
    var progWords := resultWord + xlen / 32;
    ReadChunkImageBySlots(xlen, len, taddr, prog[..progWords]);
    p := Program(prog[..progWords], progWords, resultWord);
  }

  /** The local array of `read_chunk`, filled in the source's order: the
      code, the return jump and the target address. */
  method FillReadChunk(xlen: nat, ramWords: nat, len: nat, taddr: bv64) returns (prog: array<Slot>)
    requires ChunkRequest(xlen, ramWords, len)
    ensures prog.Length == ramWords && ReadResultWord(xlen, len) + 1 < ramWords
    ensures prog[0] == ReadChunkSlot(xlen, len, taddr, 0)
    ensures forall j :: 0 <= j < Units(xlen, len) ==>
      prog[2 * j + 1] == ReadUnitLoad(xlen, j) && prog[2 * j + 2] == ReadUnitStore(xlen, len, j)
    ensures prog[ReadResultWord(xlen, len) - 1] == ReturnJump(ReadResultWord(xlen, len) - 1)
    ensures prog[ReadResultWord(xlen, len)] == Raw(Low32(taddr))
    ensures prog[ReadResultWord(xlen, len) + 1] == Raw(High32(taddr))
  {
    UnitsFit(xlen, ramWords, len);
    prog := new Slot[ramWords];
    var resultWord := 2 + (len / (xlen / 8)) * 2;
    var addrWord := resultWord;

    ReadChunkCode(prog, xlen, len);

    ReturnAndAddress(prog, resultWord, addrWord, taddr);
  }

  /** The last three stores of both chunk syntheses: the jump back to
      `rom_ret()` just below `area` (the result or data area), and the two
      halves of the target address at `addrWord` and `addrWord + 1`. */
  method ReturnAndAddress(prog: array<Slot>, area: nat, addrWord: nat, taddr: bv64)
    requires 1 <= area <= addrWord && addrWord + 1 < prog.Length
    modifies prog
    ensures prog[area - 1] == ReturnJump(area - 1)
    ensures prog[addrWord] == Raw(Low32(taddr)) && prog[addrWord + 1] == Raw(High32(taddr))
    ensures forall k :: 0 <= k < prog.Length && k != area - 1 && k != addrWord && k != addrWord + 1 ==>
      prog[k] == old(prog[k])
  {
    prog[area - 1] := UJType(JalZero, RomRet - (RamBase + (area - 1) * 4));
    prog[addrWord] := Raw(Low32(taddr));
    prog[addrWord + 1] := Raw(High32(taddr));
  }

  /** The code part of `read_chunk`'s synthesis: the address load into word
      0 and the load/store pair of each unit into words 1 .. 2 * units; the
      words above are left as they were. */
  method ReadChunkCode(prog: array<Slot>, xlen: nat, len: nat)
    requires ValidXlen(xlen) && ReadResultWord(xlen, len) <= prog.Length
    modifies prog
    ensures prog[0] == IType(LoadAddressBase(xlen), RamBase + ReadResultWord(xlen, len) * 4)
    ensures forall j :: 0 <= j < Units(xlen, len) ==>
      prog[2 * j + 1] == ReadUnitLoad(xlen, j) && prog[2 * j + 2] == ReadUnitStore(xlen, len, j)
    ensures forall k :: 2 * Units(xlen, len) < k < prog.Length ==> prog[k] == old(prog[k])
  {
    var resultWord := 2 + (len / (xlen / 8)) * 2;
    var addrWord := resultWord;
    if xlen == 32 {
      prog[0] := IType(LoadWordS0, RamBase + addrWord * 4);
      ReadUnits32(prog, len, resultWord);
    } else {
      prog[0] := IType(LoadDoubleS0, RamBase + addrWord * 4);
      ReadUnits64(prog, len, resultWord);
    }
  }

  /** The 32-bit unit loop of `read_chunk`: words 1 .. 2 * units; no other word changes. */
  method ReadUnits32(prog: array<Slot>, len: nat, resultWord: nat)
    requires resultWord == ReadResultWord(32, len) <= prog.Length
    modifies prog
    ensures forall j :: 0 <= j < Units(32, len) ==>
      prog[2 * j + 1] == ReadUnitLoad(32, j) && prog[2 * j + 2] == ReadUnitStore(32, len, j)
    ensures prog[0] == old(prog[0])
    ensures forall k :: 0 <= k < prog.Length && !(1 <= k <= 2 * Units(32, len)) ==> prog[k] == old(prog[k])
  {
    var i := 0;
    while i < len / 4
      invariant 0 <= i <= Units(32, len)
      invariant forall j :: 0 <= j < i ==>
        prog[2 * j + 1] == ReadUnitLoad(32, j) && prog[2 * j + 2] == ReadUnitStore(32, len, j)
      invariant prog[0] == old(prog[0])
      invariant forall k :: 0 <= k < prog.Length && !(1 <= k <= 2 * i) ==> prog[k] == old(prog[k])
    {
      prog[2 * i + 1] := IType(LoadWordS1FromS0, i * 4);
      prog[2 * i + 2] := SType(StoreWordS1, RamBase + (resultWord + i) * 4);
      i := i + 1;
    }
  }

  /** The 64-bit unit loop of `read_chunk`: words 1 .. 2 * units; no other word changes. */
  method ReadUnits64(prog: array<Slot>, len: nat, resultWord: nat)
    requires resultWord == ReadResultWord(64, len) <= prog.Length
    modifies prog
    ensures forall j :: 0 <= j < Units(64, len) ==>
      prog[2 * j + 1] == ReadUnitLoad(64, j) && prog[2 * j + 2] == ReadUnitStore(64, len, j)
    ensures prog[0] == old(prog[0])
    ensures forall k :: 0 <= k < prog.Length && !(1 <= k <= 2 * Units(64, len)) ==> prog[k] == old(prog[k])
  {
    var i := 0;
    while i < len / 8
      invariant 0 <= i <= Units(64, len)
      invariant forall j :: 0 <= j < i ==>
        prog[2 * j + 1] == ReadUnitLoad(64, j) && prog[2 * j + 2] == ReadUnitStore(64, len, j)
      invariant prog[0] == old(prog[0])
      invariant forall k :: 0 <= k < prog.Length && !(1 <= k <= 2 * i) ==> prog[k] == old(prog[k])
    {
      prog[2 * i + 1] := IType(LoadDoubleS1FromS0, i * 8);
      prog[2 * i + 2] := SType(StoreDoubleS1, RamBase + (resultWord / 2 + i) * 8);
      i := i + 1;
    }
  }

  /** Every word index `read_chunk` touches lies inside the window: the
      uploaded words, the spare word `addr_word + 1`, and the result words
      `result_word .. result_word + len/4 - 1` it reads back. */
  lemma ReadChunkFits(xlen: nat, ramWords: nat, len: nat)
    requires ChunkRequest(xlen, ramWords, len)
    ensures ReadProgWords(xlen, len) <= ramWords
    ensures ReadResultWord(xlen, len) + 1 < ramWords
    ensures ReadResultWord(xlen, len) + len / 4 <= ramWords
  {
    UnitsFit(xlen, ramWords, len);
  }

  /** On a 64-bit target the result area starts on an even word, so every
      doubleword the read program loads or stores in debug RAM is 8-byte
      aligned. */
  lemma ReadChunkDoublewordsAligned(len: nat, i: nat)
    ensures ReadResultWord(64, len) % 2 == 0
    ensures (RamBase + ReadResultWord(64, len) * 4) % 8 == 0
    ensures ReadUnitStore(64, len, i).imm % 8 == 0
  {
  }

  /** The store of unit `i` writes the `xlen/32` result words starting at
      `result_word + i * (xlen/32)`. */
  lemma ReadUnitStoreAddress(xlen: nat, len: nat, i: nat)
    requires ValidXlen(xlen)
    ensures ReadUnitStore(xlen, len, i).imm ==
      SlotAddress(ReadResultWord(xlen, len) + i * (xlen / 32))
  {
  }

  /** Reading back words `result_word .. result_word + len/4 - 1` returns
      exactly what the read program stored: every unit store writes bytes
      inside that range, and every word of the range lies inside the bytes
      written by the store of unit `j / (xlen/32)`. */
  lemma ReadBackMatchesStores(xlen: nat, len: nat, i: nat, j: nat)
    requires ValidXlen(xlen) && len % ChunkAlign(xlen) == 0
    ensures i < Units(xlen, len) ==>
      SlotAddress(ReadResultWord(xlen, len)) <= ReadUnitStore(xlen, len, i).imm &&
      ReadUnitStore(xlen, len, i).imm + ChunkAlign(xlen) <= SlotAddress(ReadResultWord(xlen, len) + len / 4)
    ensures j < len / 4 ==>
      j / (xlen / 32) < Units(xlen, len) &&
      ReadUnitStore(xlen, len, j / (xlen / 32)).imm <= SlotAddress(ReadResultWord(xlen, len) + j) &&
      SlotAddress(ReadResultWord(xlen, len) + j) < ReadUnitStore(xlen, len, j / (xlen / 32)).imm + ChunkAlign(xlen)
  {
    var u := Units(xlen, len);
    var rw := ReadResultWord(xlen, len);
    ReadUnitStoreAddress(xlen, len, i);
    ReadUnitStoreAddress(xlen, len, j / (xlen / 32));
    if xlen == 32 {
      assert len == 4 * u;
    } else {
      assert len == 8 * u;
      assert len / 4 == 2 * u;
      assert rw % 2 == 0;
      if j < len / 4 {
        var q := j / 2;
        assert 2 * q <= j < 2 * q + 2;
      }
    }
  }

  /** Every immediate the read program carries is a non-negative offset below
      2^11 and every base word has its immediate field clear, so `Assemble`
      encodes each one without loss (see `AssembleIType`, `AssembleSType`
      and `ReturnJumpLandsOnRom`). */
  lemma ReadChunkEncodesExactly(xlen: nat, ramWords: nat, len: nat, taddr: bv64, k: nat)
    requires ChunkRequest(xlen, ramWords, len) && k < ReadProgWords(xlen, len)
    ensures ReadChunkSlot(xlen, len, taddr, k).IType? ==>
      ReadChunkSlot(xlen, len, taddr, k).base & MaskI == 0 &&
      0 <= ReadChunkSlot(xlen, len, taddr, k).imm < 0x800
    ensures ReadChunkSlot(xlen, len, taddr, k).SType? ==>
      ReadChunkSlot(xlen, len, taddr, k).base & MaskS == 0 &&
      0 <= ReadChunkSlot(xlen, len, taddr, k).imm < 0x800
    ensures ReadChunkSlot(xlen, len, taddr, k).UJType? ==>
      ReadChunkSlot(xlen, len, taddr, k) == ReturnJump(k) && k < 64
  {
    UnitsFit(xlen, ramWords, len);
    var rw := ReadResultWord(xlen, len);
    if k == 0 {
      BaseWordsHaveClearFields();
    } else if k < rw - 1 {
      ReadUnitEncodesExactly(xlen, ramWords, len, (k - 1) / 2);
    }
  }

  /** The load and the store of each unit of `read_chunk` carry their
      offsets exactly. */
  lemma ReadUnitEncodesExactly(xlen: nat, ramWords: nat, len: nat, j: nat)
    requires ChunkRequest(xlen, ramWords, len) && j < Units(xlen, len)
    ensures ReadUnitLoad(xlen, j).base & MaskI == 0 && 0 <= ReadUnitLoad(xlen, j).imm < 0x800
    ensures ReadUnitStore(xlen, len, j).base & MaskS == 0 && 0 <= ReadUnitStore(xlen, len, j).imm < 0x800
  {
    UnitsFit(xlen, ramWords, len);
    BaseWordsHaveClearFields();
    assert ReadResultWord(xlen, len) + j * (xlen / 32) < 64;
  }

  // ---------------------------------------------------------------------
  // write_chunk

  /** First RAM word of the data area, and the word holding the target
      address just after it. */
  function WriteDataWord(xlen: nat, len: nat): nat
    requires ValidXlen(xlen)
  {
    2 + Units(xlen, len) * 2
  }

  function WriteAddrWord(xlen: nat, len: nat): nat
    requires ValidXlen(xlen)
  {
    WriteDataWord(xlen, len) + len / 4
  }

  function WriteProgWords(xlen: nat, len: nat): nat
    requires ValidXlen(xlen)
  {
    WriteAddrWord(xlen, len) + xlen / 32
  }

  /** Unit `i` is loaded from the data area ... */
  function WriteUnitLoad(xlen: nat, len: nat, i: nat): Slot
    requires ValidXlen(xlen)
  {
    var dw := WriteDataWord(xlen, len);
    IType(LoadUnitFromRamBase(xlen),
          if xlen == 32 then RamBase + (dw + i) * 4 else RamBase + (dw / 2 + i) * 8)
  }

  /** ... and stored to the target at byte offset `i * chunk_align()` from
      the address in s0. */
  function WriteUnitStore(xlen: nat, i: nat): Slot
  {
    SType(StoreUnitToTargetBase(xlen), if xlen == 32 then i * 4 else i * 8)
  }

  /** Word `k` of the write program: word 0 loads the target address, words
      2i+1 and 2i+2 move unit i, word `data_word - 1` jumps back to
      `rom_ret()`, words `data_word .. addr_word - 1` hold the data, and
      `addr_word` and the word after it hold the target address. */
  function WriteChunkSlot(xlen: nat, len: nat, taddr: bv64, src: seq<bv32>, k: nat): Slot
    requires ValidXlen(xlen)
  {
    var dw := WriteDataWord(xlen, len);
    var aw := WriteAddrWord(xlen, len);
    if k == 0 then IType(LoadAddressBase(xlen), RamBase + aw * 4)
    else if k < dw - 1 then
      if k % 2 == 1 then WriteUnitLoad(xlen, len, (k - 1) / 2) else WriteUnitStore(xlen, (k - 1) / 2)
    else if k == dw - 1 then ReturnJump(dw - 1)
    else if k < aw then (if k - dw < |src| then Raw(src[k - dw]) else Raw(0))
    else if k == aw then Raw(Low32(taddr))
    else Raw(High32(taddr))
  }

  /** The uploaded part of the write program. */
  function WriteChunkImage(xlen: nat, len: nat, taddr: bv64, src: seq<bv32>): seq<Slot>
    requires ValidXlen(xlen)
  {
    seq(WriteProgWords(xlen, len), k requires 0 <= k => WriteChunkSlot(xlen, len, taddr, src, k))
  }

  lemma WriteChunkImageBySlots(xlen: nat, len: nat, taddr: bv64, src: seq<bv32>, s: seq<Slot>)
    requires ValidXlen(xlen) && |s| == WriteProgWords(xlen, len)
    requires s[0] == WriteChunkSlot(xlen, len, taddr, src, 0)
    requires forall j :: 0 <= j < Units(xlen, len) ==>
      s[2 * j + 1] == WriteUnitLoad(xlen, len, j) && s[2 * j + 2] == WriteUnitStore(xlen, j)
    requires s[WriteDataWord(xlen, len) - 1] == ReturnJump(WriteDataWord(xlen, len) - 1)
    requires |src| == len / 4
    requires forall j :: 0 <= j < |src| ==> s[WriteDataWord(xlen, len) + j] == Raw(src[j])
    requires s[WriteAddrWord(xlen, len)] == Raw(Low32(taddr))
    requires xlen == 64 ==> s[WriteAddrWord(xlen, len) + 1] == Raw(High32(taddr))
    ensures s == WriteChunkImage(xlen, len, taddr, src)
  {
    var img := WriteChunkImage(xlen, len, taddr, src);
    var dw := WriteDataWord(xlen, len);
    forall k | 0 <= k < |s|
      ensures s[k] == img[k]
    {
      if 1 <= k < dw - 1 {
        var j := (k - 1) / 2;
        assert k == 2 * j + 1 || k == 2 * j + 2;
      } else if dw <= k < dw + |src| {
        assert s[dw + (k - dw)] == Raw(src[k - dw]);
      }
    }
  }

  /** `write_chunk`'s program synthesis. The source's `memcpy` of `len` bytes
      into the data area is modelled as copying the `len/4` words of `src`. */
  method BuildWriteChunk(xlen: nat, ramWords: nat, len: nat, taddr: bv64, src: seq<bv32>)
    returns (p: Program)
    requires ChunkRequest(xlen, ramWords, len) && |src| == len / 4
    ensures p.count == |p.slots| == WriteProgWords(xlen, len) <= ramWords
    ensures p.resultSlot == WriteDataWord(xlen, len) < ramWords
    ensures p.slots == WriteChunkImage(xlen, len, taddr, src)
  {
    var prog := FillWriteChunk(xlen, ramWords, len, taddr, src);
    var dataWord := 2 + (len / (xlen / 8)) * 2;
    var progWords := dataWord + len / 4 + xlen / 32;
    WriteChunkImageBySlots(xlen, len, taddr, src, prog[..progWords]);
    p := Program(prog[..progWords], progWords, dataWord);
  }

  /** The local array of `write_chunk`, filled in the source's order: the
      data area, the code, the return jump and the target address. */
  method FillWriteChunk(xlen: nat, ramWords: nat, len: nat, taddr: bv64, src: seq<bv32>)
    returns (prog: array<Slot>)
    requires ChunkRequest(xlen, ramWords, len) && |src| == len / 4
    ensures prog.Length == ramWords && WriteAddrWord(xlen, len) + 1 < ramWords
    ensures prog[0] == WriteChunkSlot(xlen, len, taddr, src, 0)
    ensures forall j :: 0 <= j < Units(xlen, len) ==>
      prog[2 * j + 1] == WriteUnitLoad(xlen, len, j) && prog[2 * j + 2] == WriteUnitStore(xlen, j)
    ensures prog[WriteDataWord(xlen, len) - 1] == ReturnJump(WriteDataWord(xlen, len) - 1)
    ensures forall j :: 0 <= j < |src| ==> prog[WriteDataWord(xlen, len) + j] == Raw(src[j])
    ensures prog[WriteAddrWord(xlen, len)] == Raw(Low32(taddr))
    ensures prog[WriteAddrWord(xlen, len) + 1] == Raw(High32(taddr))
  {
    UnitsFit(xlen, ramWords, len);
    prog := new Slot[ramWords];
    var dataWord := 2 + (len / (xlen / 8)) * 2;
    var addrWord := dataWord + len / 4;

    CopyWords(prog, dataWord, src);
    WriteChunkCode(prog, xlen, len);

    ReturnAndAddress(prog, dataWord, addrWord, taddr);
  }

  /** The `memcpy` into the data area: `src` lands at words `at ..`, and no
      other word changes. */
  method CopyWords(prog: array<Slot>, at: nat, src: seq<bv32>)
    requires at + |src| <= prog.Length
    modifies prog
    ensures forall j :: 0 <= j < |src| ==> prog[at + j] == Raw(src[j])
    ensures forall k :: 0 <= k < at ==> prog[k] == old(prog[k])
    ensures forall k :: at + |src| <= k < prog.Length ==> prog[k] == old(prog[k])
  {
    forall k | 0 <= k < |src| {
      prog[at + k] := Raw(src[k]);
    }
  }

  /** The code part of `write_chunk`'s synthesis: word 0 and words
      1 .. 2 * units; the words above, the data area among them, are left as
      they were. */
  method WriteChunkCode(prog: array<Slot>, xlen: nat, len: nat)
    requires ValidXlen(xlen) && WriteDataWord(xlen, len) <= prog.Length
    modifies prog
    ensures prog[0] == IType(LoadAddressBase(xlen), RamBase + WriteAddrWord(xlen, len) * 4)
    ensures forall j :: 0 <= j < Units(xlen, len) ==>
      prog[2 * j + 1] == WriteUnitLoad(xlen, len, j) && prog[2 * j + 2] == WriteUnitStore(xlen, j)
    ensures forall k :: WriteDataWord(xlen, len) <= k < prog.Length ==> prog[k] == old(prog[k])
    ensures forall k :: 2 * Units(xlen, len) < k < prog.Length ==> prog[k] == old(prog[k])
  {
    var dataWord := 2 + (len / (xlen / 8)) * 2;
    var addrWord := dataWord + len / 4;
    if xlen == 32 {
      prog[0] := IType(LoadWordS0, RamBase + addrWord * 4);
      WriteUnits32(prog, len, dataWord);
    } else {
      prog[0] := IType(LoadDoubleS0, RamBase + addrWord * 4);
      WriteUnits64(prog, len, dataWord);
    }
  }

  /** The 32-bit unit loop of `write_chunk`: words 1 .. 2 * units; no other word changes. */
  method WriteUnits32(prog: array<Slot>, len: nat, dataWord: nat)
    requires dataWord == WriteDataWord(32, len) <= prog.Length
    modifies prog
    ensures forall j :: 0 <= j < Units(32, len) ==>
      prog[2 * j + 1] == WriteUnitLoad(32, len, j) && prog[2 * j + 2] == WriteUnitStore(32, j)
    ensures forall k :: (k == 0 || dataWord <= k < prog.Length) ==> prog[k] == old(prog[k])
    ensures forall k :: 0 <= k < prog.Length && !(1 <= k <= 2 * Units(32, len)) ==> prog[k] == old(prog[k])
  {
    var i := 0;
    while i < len / 4
      invariant 0 <= i <= Units(32, len)
      invariant forall j :: 0 <= j < i ==>
        prog[2 * j + 1] == WriteUnitLoad(32, len, j) && prog[2 * j + 2] == WriteUnitStore(32, j)
      invariant forall k :: (k == 0 || dataWord <= k < prog.Length) ==> prog[k] == old(prog[k])
      invariant forall k :: 0 <= k < prog.Length && !(1 <= k <= 2 * i) ==> prog[k] == old(prog[k])
    {
      prog[2 * i + 1] := IType(LoadWordS1, RamBase + (dataWord + i) * 4);
      prog[2 * i + 2] := SType(StoreWordS1ToS0, i * 4);
      i := i + 1;
    }
  }

  /** The 64-bit unit loop of `write_chunk`: words 1 .. 2 * units; no other word changes. */
  method WriteUnits64(prog: array<Slot>, len: nat, dataWord: nat)
    requires dataWord == WriteDataWord(64, len) <= prog.Length
    modifies prog
    ensures forall j :: 0 <= j < Units(64, len) ==>
      prog[2 * j + 1] == WriteUnitLoad(64, len, j) && prog[2 * j + 2] == WriteUnitStore(64, j)
    ensures forall k :: (k == 0 || dataWord <= k < prog.Length) ==> prog[k] == old(prog[k])
    ensures forall k :: 0 <= k < prog.Length && !(1 <= k <= 2 * Units(64, len)) ==> prog[k] == old(prog[k])
  {
    var i := 0;
    while i < len / 8
      invariant 0 <= i <= Units(64, len)
      invariant forall j :: 0 <= j < i ==>
        prog[2 * j + 1] == WriteUnitLoad(64, len, j) && prog[2 * j + 2] == WriteUnitStore(64, j)
      invariant forall k :: (k == 0 || dataWord <= k < prog.Length) ==> prog[k] == old(prog[k])
      invariant forall k :: 0 <= k < prog.Length && !(1 <= k <= 2 * i) ==> prog[k] == old(prog[k])
    {
      prog[2 * i + 1] := IType(LoadDoubleS1, RamBase + (dataWord / 2 + i) * 8);
      prog[2 * i + 2] := SType(StoreDoubleS1ToS0, i * 8);
      i := i + 1;
    }
  }

  /** Every word index `write_chunk` touches lies inside the window, and the
      data area `data_word .. addr_word - 1` holds exactly `len/4` words. */
  lemma WriteChunkFits(xlen: nat, ramWords: nat, len: nat)
    requires ChunkRequest(xlen, ramWords, len)
    ensures WriteProgWords(xlen, len) <= ramWords
    ensures WriteAddrWord(xlen, len) + 1 < ramWords
    ensures WriteAddrWord(xlen, len) - WriteDataWord(xlen, len) == len / 4
  {
    UnitsFit(xlen, ramWords, len);
  }

  /** The load of unit `i` reads the `xlen/32` data words starting at
      `data_word + i * (xlen/32)`, which hold source words
      `i * (xlen/32) ..`; on a 64-bit target those doublewords and the target
      address are 8-byte aligned. */
  lemma WriteUnitLoadAddress(xlen: nat, len: nat, i: nat)
    requires ValidXlen(xlen)
    ensures WriteUnitLoad(xlen, len, i).imm ==
      SlotAddress(WriteDataWord(xlen, len) + i * (xlen / 32))
    ensures xlen == 64 ==> WriteUnitLoad(xlen, len, i).imm % 8 == 0
  {
  }

  lemma WriteChunkDataWords(xlen: nat, len: nat, taddr: bv64, src: seq<bv32>, j: nat)
    requires ValidXlen(xlen) && j < |src| && |src| == len / 4
    ensures WriteChunkSlot(xlen, len, taddr, src, WriteDataWord(xlen, len) + j) == Raw(src[j])
  {
  }

  /** As for the read program, every immediate is encoded without loss. */
  lemma WriteChunkEncodesExactly(xlen: nat, ramWords: nat, len: nat, taddr: bv64,
                                 src: seq<bv32>, k: nat)
    requires ChunkRequest(xlen, ramWords, len) && k < WriteProgWords(xlen, len)
    ensures WriteChunkSlot(xlen, len, taddr, src, k).IType? ==>
      WriteChunkSlot(xlen, len, taddr, src, k).base & MaskI == 0 &&
      0 <= WriteChunkSlot(xlen, len, taddr, src, k).imm < 0x800
    ensures WriteChunkSlot(xlen, len, taddr, src, k).SType? ==>
      WriteChunkSlot(xlen, len, taddr, src, k).base & MaskS == 0 &&
      0 <= WriteChunkSlot(xlen, len, taddr, src, k).imm < 0x800
    ensures WriteChunkSlot(xlen, len, taddr, src, k).UJType? ==>
      WriteChunkSlot(xlen, len, taddr, src, k) == ReturnJump(k) && k < 64
  {
    UnitsFit(xlen, ramWords, len);
    var dw := WriteDataWord(xlen, len);
    if k == 0 {
      BaseWordsHaveClearFields();
    } else if k < dw - 1 {
      WriteUnitEncodesExactly(xlen, ramWords, len, (k - 1) / 2);
    }
  }

  /** The load and the store of each unit of `write_chunk` carry their
      offsets exactly. */
  lemma WriteUnitEncodesExactly(xlen: nat, ramWords: nat, len: nat, j: nat)
    requires ChunkRequest(xlen, ramWords, len) && j < Units(xlen, len)
    ensures WriteUnitLoad(xlen, len, j).base & MaskI == 0 && 0 <= WriteUnitLoad(xlen, len, j).imm < 0x800
    ensures WriteUnitStore(xlen, j).base & MaskS == 0 && 0 <= WriteUnitStore(xlen, j).imm < 0x800
  {
    UnitsFit(xlen, ramWords, len);
    BaseWordsHaveClearFields();
    assert WriteDataWord(xlen, len) + j * (xlen / 32) < 64;
  }

  // ---------------------------------------------------------------------
  // write_csr, read_csr and get_xlen: fixed layouts

  /** The RAM word that carries the CSR value in both CSR programs. */
  const CsrDataWord: nat := 4

  /** The words `write_csr` uploads: load the value from `data_word` into s0,
      write it to CSR `which`, return; word 3 is the zero fill of the array
      initializer, and `data_word` onwards hold the value. */
  function WriteCsrImage(xlen: nat, which: nat, data: bv64): seq<Slot>
    requires ValidXlen(xlen)
  {
    [IType(LoadAddressBase(xlen), RamBase + CsrDataWord * 4), IType(CsrWriteS0, which),
     Raw(0x3fc0_006f), Raw(0), Raw(Low32(data))] +
    (if xlen == 64 then [Raw(High32(data))] else [])
  }

  /** `write_csr`'s program synthesis. The source writes `data_word + 1`
      whatever the width, so the window must hold at least six words. */
  method BuildWriteCsr(xlen: nat, ramWords: nat, which: nat, data: bv64) returns (p: Program)
    requires ValidXlen(xlen) && 6 <= ramWords
    ensures p.count == |p.slots| == CsrDataWord + xlen / 32 <= ramWords
    ensures p.resultSlot == 0
    ensures p.slots == WriteCsrImage(xlen, which, data)
  {
    var load := if xlen == 64 then LoadDoubleS0 else LoadWordS0;
    var dataWord := 4;
    var prog := new Slot[ramWords](_ => Raw(0));
    prog[0] := IType(load, RamBase + dataWord * 4);
    prog[1] := IType(CsrWriteS0, which);
    prog[2] := Raw(0x3fc0_006f);

    prog[dataWord] := Raw(Low32(data));
    prog[dataWord + 1] := Raw(High32(data));
    p := Program(prog[..dataWord + xlen / 32], dataWord + xlen / 32, 0);
  }

  /** The words `read_csr` uploads: read CSR `which` into s0, store it to
      `data_word`, return. The result is polled at `data_word`. */
  function ReadCsrProgram(xlen: nat, which: nat): Program
  {
    var store := if xlen == 64 then StoreDoubleS0 else StoreWordS0;
    Program([IType(CsrReadS0, which), SType(store, RamBase + CsrDataWord * 4), Raw(0x3fc0_006f)],
            3, CsrDataWord)
  }

  /** What the CSR programs mean: the CSR number reaches the instruction's
      csr field unchanged for every 12-bit CSR, the value moves through RAM
      word `data_word` (8-byte aligned for the doubleword forms), and the
      third word is the jump back to `rom_ret()` from word 2. */
  lemma CsrProgramsLayout(xlen: nat, which: nat, data: bv64)
    requires ValidXlen(xlen) && which < 0x1000
    ensures ImmI(Assemble(WriteCsrImage(xlen, which, data)[1])) as int == which
    ensures ImmI(Assemble(ReadCsrProgram(xlen, which).slots[0])) as int == which
    ensures WriteCsrImage(xlen, which, data)[0].imm == SlotAddress(CsrDataWord)
    ensures ReadCsrProgram(xlen, which).slots[1].imm == SlotAddress(CsrDataWord)
    ensures SlotAddress(CsrDataWord) % 8 == 0
    ensures Assemble(WriteCsrImage(xlen, which, data)[2]) == Assemble(ReturnJump(2))
    ensures Assemble(ReadCsrProgram(xlen, which).slots[2]) == Assemble(ReturnJump(2))
  {
    BaseWordsHaveClearFields();
    AssembleIType(CsrWriteS0, which);
    AssembleIType(CsrReadS0, which);
    ReturnWordAtSlot2();
  }

  /** Both CSR programs fit a window of at least six words, as the source's
      unconditional write of `data_word + 1` and the 64-bit read-back of
      word `data_word + 1` require. */
  lemma CsrProgramsFit(xlen: nat, ramWords: nat, which: nat, data: bv64)
    requires ValidXlen(xlen) && 6 <= ramWords
    ensures |WriteCsrImage(xlen, which, data)| <= ramWords
    ensures ReadCsrProgram(xlen, which).count <= ramWords
    ensures ReadCsrProgram(xlen, which).resultSlot + xlen / 32 <= ramWords
  {
  }

  /** The XLEN probe: read the ISA register into s0, set s1 to 32, set s0 to
      1 when that register is negative (its top bit, MXL, marks a 64-bit hart), shift s1
      left by s0, store s1 to RAM word 0, return. */
  function GetXlenProgram(): Program
  {
    Program([Raw(0xf100_2473), Raw(0x0200_0493), Raw(0x0004_2413), Raw(0x0084_94b3),
             Raw(0x4090_2023), Raw(0x3f00_006f)], 6, 0)
  }

  /** Decoding the probe's words: word 0 is the same CSR read `read_csr`
      uses, aimed at CSR 0xF10 (the ISA register this probe reads), word 1
      loads the constant 32, word 4 is a store of s1 to RAM word 0, which is
      where the result is polled, and word 5 is the jump back from word 5.
      Word 1 is `addi s1, zero, 32`: opcode OP-IMM, destination s1, source
      zero, immediate 32. Word 2 is `slti s0, s0, 0` (OP-IMM, funct3 2,
      s0 from s0, immediate 0) and word 3 is `sll s1, s1, s0` (OP, funct3 1,
      funct7 0, s1 from s1 and s0). */
  lemma GetXlenProgramLayout()
    ensures GetXlenProgram().count == |GetXlenProgram().slots|
    ensures Assemble(GetXlenProgram().slots[0]) & !MaskI == CsrReadS0
    ensures ImmI(Assemble(GetXlenProgram().slots[0])) == 0xF10
    ensures Assemble(GetXlenProgram().slots[1]) & !MaskI == 0x0000_0493
    ensures ImmI(Assemble(GetXlenProgram().slots[1])) == 32
    ensures var w := Assemble(GetXlenProgram().slots[2]);
      Opcode(w) == 0x13 && Funct3(w) == 2 && Rd(w) == 8 && Rs1(w) == 8 && ImmI(w) == 0
    ensures var w := Assemble(GetXlenProgram().slots[3]);
      Opcode(w) == 0x33 && Funct3(w) == 1 && Funct7(w) == 0 && Rd(w) == 9 && Rs1(w) == 9 && Rs2(w) == 8
    ensures Assemble(GetXlenProgram().slots[4]) & !MaskS == StoreWordS1
    ensures ImmS(Assemble(GetXlenProgram().slots[4])) as int == SlotAddress(GetXlenProgram().resultSlot)
    ensures Assemble(GetXlenProgram().slots[5]) == Assemble(ReturnJump(5))
  {
    ReturnWordAtSlot5();
  }
}
